=== FILE: README.md ===
# 50cube front end — a Dafny model of its page logic

The 50cube front end is a React application around a reading-and-quiz
platform: timed league challenges, a catalog of "readers" bought with
credits, a library of purchased readers with expiring download links, a
home page with a leaderboard, a spotlight carousel and platform statistics,
and a list of leagues. Almost all of it fetches JSON and renders it; the
logic lives in component event handlers. This project lifts each handler
into a pure function over an explicit state record and proves what the
pages promise about it.

Modules, one per page or shared concern:

- `Quiz` (`quiz.dfy`) — the league challenge. It covers loading with
  defaults, the pre-quiz / in-quiz / completed gate, selecting an answer,
  next and previous, the countdown tick and time-up, scoring, the score
  formula, the result banner and the `m:ss` clock face.
- `Readers` (`readers.dfy`) — the reader catalog. It covers credits and the
  purchase ledger in local storage, the purchase handler with its guard
  order, the search/category/difficulty filter, the four sort orders, the
  category list, favourites and the premium flag.
- `Library` (`library.dfy`) — the library page. It covers normalising
  stored records, the 24-hour link expiry, the download cap and increment,
  clearing, the totals and the "time since purchase" label.
- `Carousel` (`carousel.dfy`) — the home page's modular spotlight
  navigation, the spotlight component's explicit wrap-around, the
  auto-rotation, and loading the spotlight list.
- `Leaderboard` (`leaderboard.dfy`) — the home page's leaderboard
  extraction, entry conversion, top-ten truncation and statistics
  fallbacks.
- `Leagues` (`leagues.dfy`) — where the league array is found in a
  response, league conversion with defaults, the filters and the button
  label.
- Shared modules. `Json` (`json.dfy`) holds JavaScript values as parsed
  from JSON, with truthiness, property lookup, `a || b || c` chains,
  `String()` and `Number()`. `JsNumber` holds integral numbers with `NaN`,
  `parseInt` and `Number` on strings. `Decimal` holds decimal digit
  strings. `Seqs` holds filter, stable sort by key, dedupe and
  map-where-matching. `Arith` holds small arithmetic facts. `Wrappers`
  holds `Option`.

Time is always a parameter: `now` in milliseconds and, where the page
stores a date, the ISO string of that time. Local storage is a `Storage`
value holding the three keys the pages share. A request's end is a
`Fetched` value: a thrown error with its message, or a parsed body.
Navigation appears only as an outcome tag.

## Model

| member | source | states |
|---|---|---|
| Quiz.BuildLeague | src/pages/Leagues/LeagueChallenge.tsx:143-150 | the time limit is the payload's when non-zero and 10 otherwise; the questions are the payload's whenever present, even an empty list, and the five built-in questions otherwise; name and description are never empty |
| Quiz.Fresh | src/pages/Leagues/LeagueChallenge.tsx:152-154 | a loaded session has one `-1` slot per question, `timeRemaining = timeLimit * 60`, cursor 0, nothing pending, and is neither started nor completed |
| Quiz.Load | src/pages/Leagues/LeagueChallenge.tsx:143-157 | a payload gives a valid fresh session of the built league; no payload gives exactly the "Failed to load league challenge" error |
| Quiz.LoadThrew | src/pages/Leagues/LeagueChallenge.tsx:158-160 | a thrown load shows the error's own message, or a non-empty fixed one when that message is empty |
| Quiz.RoundDiv | src/pages/Leagues/LeagueChallenge.tsx:176 | `Math.round(a / b)` rounds half up: `2br <= 2a + b < 2b(r + 1)` |
| Quiz.CountCorrect | src/pages/Leagues/LeagueChallenge.tsx:179-184 | the count is the number of positions whose chosen answer equals the question's `correctAnswer`; so it is at most the number of questions, equals it when all are right and is 0 when none is |
| Quiz.FixingOneAnswerAddsOne | src/pages/Leagues/LeagueChallenge.tsx:179-184 | changing one wrong answer to the correct one raises the count by exactly one |
| Quiz.Accuracy | src/pages/Leagues/LeagueChallenge.tsx:186-187 | the percentage is NaN exactly when there are no questions; otherwise it is `100 * correct / total` rounded half up (the nearest integer, ties upward), within [0, 100], 100 when all are right and 0 when none is |
| Quiz.PercentBounds | src/pages/Leagues/LeagueChallenge.tsx:186-187 | the rounded percentage of c out of t lies in [0, 100] and hits 100 at c = t and 0 at c = 0 |
| Quiz.Score | src/pages/Leagues/LeagueChallenge.tsx:174-194 | the results count all questions and exactly the positions answered correctly, carry the accuracy of that count, and the elapsed milliseconds rounded half up to seconds |
| Quiz.DisplayScore | src/pages/Leagues/LeagueChallenge.tsx:375-380 | the shown score is NaN exactly when the accuracy is; otherwise it is `max(1, floor(accuracy * (100 - t / 10)))`: at least 1 and at least the floor, equal to the floor when above 1, so a shown 1 means the floor is at most 1 |
| Quiz.DisplayScoreNonIncreasing | src/pages/Leagues/LeagueChallenge.tsx:375-380 | for a fixed accuracy a slower finish never shows a higher score |
| Quiz.TierOf | src/pages/Leagues/LeagueChallenge.tsx:330-334 | the banner is "excellent" iff accuracy >= 80, "good" iff 60 <= accuracy < 80, and otherwise "keep practising", NaN included |
| Quiz.TierMonotone | src/pages/Leagues/LeagueChallenge.tsx:330-334 | a higher accuracy never earns a lower banner |
| Quiz.JsRem | src/pages/Leagues/LeagueChallenge.tsx:282 | JavaScript's `%`: the remainder differs from the dividend by a multiple of the divisor, keeps the dividend's sign and stays below the divisor in magnitude |
| Quiz.FormatTimeRoundTrip | src/pages/Leagues/LeagueChallenge.tsx:280-284 | for s >= 0 the `m:ss` face reads back as exactly s seconds: minutes * 60 + two-digit seconds |
| Quiz.StepPreservesValid | src/pages/Leagues/LeagueChallenge.tsx:220-278 | every handler keeps the answers one per question, the cursor on a question, results present iff completed, a start time iff started, and completed only after started |
| Quiz.StepPreservesAnswersInRange | src/pages/Leagues/LeagueChallenge.tsx:249-278 | when only options of the question on screen are selected, every stored answer stays -1 or a valid option |
| Quiz.CompletedIsFinal | src/pages/Leagues/LeagueChallenge.tsx:220-242 | on a completed session every action is a no-op |
| Quiz.NextWithoutPendingIsNoOp | src/pages/Leagues/LeagueChallenge.tsx:253-254 | Next with nothing selected changes nothing |
| Quiz.NextAdvances | src/pages/Leagues/LeagueChallenge.tsx:253-262 | before the last question, Next writes the selection at the cursor only, clears it and moves the cursor one on, staying in range and not completing |
| Quiz.NextOnLastSubmits | src/pages/Leagues/LeagueChallenge.tsx:260-265 | on the last question, Next completes the quiz with results scored on the updated answers |
| Quiz.PreviousAtFirstIsNoOp | src/pages/Leagues/LeagueChallenge.tsx:269-270 | Previous at question 0 changes nothing |
| Quiz.PreviousRestores | src/pages/Leagues/LeagueChallenge.tsx:269-278 | Previous moves back one, leaves the answers unchanged, and selects the stored answer there, or nothing when it is -1 |
| Quiz.PreviousThenNext | src/pages/Leagues/LeagueChallenge.tsx:253-278 | going back over an answered question and forward again restores the cursor and the answers |
| Quiz.TickCountsDown | src/pages/Leagues/LeagueChallenge.tsx:228-238 | a tick maps r > 1 to r - 1 and r <= 1 to 0, submitting the recorded answers; the clock never goes negative |
| Quiz.StepKeepsClockNonNegative | src/pages/Leagues/LeagueChallenge.tsx:231-237 | no action makes a non-negative clock negative |
| Quiz.Run | src/pages/Leagues/LeagueChallenge.tsx:244-278 | any sequence of actions from a valid session ends in a valid session |
| Quiz.ResultsAreFinal | src/pages/Leagues/LeagueChallenge.tsx:220-225 | once completed, no sequence of later actions changes the session or its results |
| Quiz.LastAnswerAndTimeoutRace | src/pages/Leagues/LeagueChallenge.tsx:220-225 | whichever of the last Next and the final tick runs second finds the quiz completed and changes nothing |
| Quiz.FourOfFiveScenario | src/pages/Leagues/LeagueChallenge.tsx:174-194 | four of the five built-in questions right after 180 000 ms gives 4 correct, 80 percent, 180 seconds |
| Quiz.TwoOfFiveScenario | src/pages/Leagues/LeagueChallenge.tsx:174-194 | two answered and three unanswered after 600 000 ms gives 2 correct, 40 percent, 600 seconds |
| Readers.InitialCredits | src/pages/Readers/ReadersPage.tsx:65-69 | the balance is 1000 when nothing or an empty string is stored, and `parseInt` of the stored text otherwise |
| Readers.CreditsSurviveReload | src/pages/Readers/ReadersPage.tsx:226-228 | the balance a purchase writes with `toString` is the balance the next visit reads with `parseInt` |
| Readers.Purchase | src/pages/Readers/ReadersPage.tsx:186-206 | as written: a balance below the price only records the "Insufficient credits" state, then an owned reader only navigates, and otherwise the reader is bought with a non-negative balance left |
| Readers.PurchaseOwnedFirst | src/pages/Readers/ReadersPage.tsx:186-206 | corrected order: an owned reader always navigates; otherwise a short balance is refused with the same state, and a sufficient one buys |
| Readers.OwnedButShortIsRefused | src/pages/Readers/ReadersPage.tsx:190-206 | an owned reader priced 200 with a balance of 50 has an enabled button, is refused as written and navigates under the corrected order |
| Readers.OrdersAgreeOtherwise | src/pages/Readers/ReadersPage.tsx:190-206 | the two orders give identical results whenever the balance covers the price or the reader is not owned |
| Readers.BuyUpdatesLedger | src/pages/Readers/ReadersPage.tsx:225-267 | a purchase takes exactly the price off, leaving at least 0; it appends the id and one record with 0 downloads and a cap of 5, writes all three to storage and marks the state a success |
| Readers.BuyMarksOnlyThatReader | src/pages/Readers/ReadersPage.tsx:250-257 | only the bought reader's catalog entry changes: it becomes owned and gains one download |
| Readers.PurchaseSeenByLibrary | src/pages/Readers/ReadersPage.tsx:235-248 | after a purchase the library shows the new record last, with 0 downloads, a cap of 5, a link usable for the next 24 hours, and the same balance after a reload |
| Readers.PurchaseAll | src/pages/Readers/ReadersPage.tsx:190-228 | over any run of purchases, with the corrected order that checks ownership first, a non-negative balance stays non-negative and never grows unless some price is negative; a NaN balance stays NaN and a finite one stays finite |
| Readers.UnreadableBalanceBuysEverything | src/pages/Readers/ReadersPage.tsx:65-69 | a stored balance `parseInt` cannot read is NaN; no price is above it, so a purchase succeeds, and the balance written back is "NaN" and reads back as NaN |
| Readers.Includes | src/pages/Readers/ReadersPage.tsx:305-309 | `includes` holds exactly when the needle occurs at some position of the text |
| Readers.IncludesEmpty | src/pages/Readers/ReadersPage.tsx:305 | the empty search text occurs in every text |
| Readers.FilteredReaders | src/pages/Readers/ReadersPage.tsx:302-329 | the shown list is a rearrangement of the catalog readers that pass the filter |
| Readers.FilteredIsExactlyTheMatches | src/pages/Readers/ReadersPage.tsx:302-316 | a reader is shown iff it is in the catalog and matches the case-insensitive search on title, author or a tag, the category ("all" matches all) and the difficulty ("all" matches all) |
| Readers.FilteredOrder | src/pages/Readers/ReadersPage.tsx:317-329 | "price" is ascending by price, "popular" descending by downloads, "rating" descending by rating, and "newest" keeps catalog order |
| Readers.NoFiltersKeepsCatalog | src/pages/Readers/ReadersPage.tsx:302-316 | an empty search with both filters on "all" under "newest" shows the whole catalog unchanged |
| Readers.Categories | src/pages/Readers/ReadersPage.tsx:290-293 | the category buttons are "all" followed by each catalog category exactly once and nothing else, ordered by where each category first appears in the catalog |
| Seqs.Dedupe | src/pages/Readers/ReadersPage.tsx:290-293 | `Array.from(new Set(xs))` holds exactly the values of xs, each once, ordered by first occurrence in xs |
| Readers.ToggleFavorite | src/pages/Readers/ReadersPage.tsx:346-354 | every reader with the id becomes the same record with its favourite flag flipped; every other reader is unchanged |
| Readers.ToggleFavoriteInvolution | src/pages/Readers/ReadersPage.tsx:346-354 | toggling the same id twice restores the catalog |
| Readers.PremiumDerivation | src/pages/Readers/ReadersPage.tsx:151-154 | the price is `cost`, or `price` when `cost` is 0, or 0; a reader is premium iff flagged or that price exceeds 100 |
| Library.Normalize | src/pages/Readers/LibraryPage.tsx:50-64 | the defaults are title "Untitled Reader", author "Unknown Author", description "No description available", downloads 0, cap 5, pages = `pageCount` else `pages` else 0, price 0 and category "General"; the purchase date is the stored one, else `purchasedAt`, else now; the id and link are kept |
| Library.NormalizeAll | src/pages/Readers/LibraryPage.tsx:50-64 | one normalised record per stored record, in order |
| Library.LoadLibrary | src/pages/Readers/LibraryPage.tsx:44-70 | a missing key gives an empty library, and a stored list gives one record per stored item |
| Library.ExpiryBoundary | src/pages/Readers/LibraryPage.tsx:91-104 | a link has expired iff now - token > 86 400 000; exactly 24 hours is still valid; a link without a token never expires |
| Library.Find | src/pages/Readers/LibraryPage.tsx:84 | a found record is the first record with the requested id: it has the id and no earlier record does; when none is found, no record has it |
| Library.DownloadGate | src/pages/Readers/LibraryPage.tsx:84-113 | checked in order: no record or no link refuses with "no link"; otherwise an expired link refuses as expired; otherwise a count at or above the cap refuses as limit reached; otherwise the download goes ahead (each outcome as an iff) |
| Library.Download | src/pages/Readers/LibraryPage.tsx:84-142 | a refused download changes neither the page nor storage; no download changes the credits or the purchase list |
| Library.DownloadIncrementsOnlyMatching | src/pages/Readers/LibraryPage.tsx:125-142 | a download adds exactly 1 to the matching record's count and leaves every other record unchanged |
| Library.DownloadKeepsCap | src/pages/Readers/LibraryPage.tsx:108-113 | with unique ids, counts that start at or below their caps stay there |
| Library.DownloadKeepsStorageInStep | src/pages/Readers/LibraryPage.tsx:125-142 | reading storage again after a download gives exactly the library the page holds |
| Library.IncrementTotal | src/pages/Readers/LibraryPage.tsx:232-235 | incrementing the records with an id raises the total downloads by the number of such records |
| Library.DownloadTotal | src/pages/Readers/LibraryPage.tsx:232-235 | with unique ids, the total-downloads figure goes up by exactly 1 on a download and is unchanged on a refusal |
| Library.ClearLibrary | src/pages/Readers/LibraryPage.tsx:165-175 | an unconfirmed clear changes nothing; a confirmed one empties the page and removes both the library and the purchase list from storage; no clear touches the credits |
| Library.ClearEmpties | src/pages/Readers/LibraryPage.tsx:165-175 | a confirmed clear leaves an empty library, also after a reload, with zero download and page totals |
| Readers.ClearedReadersAreForSaleAgain | src/pages/Readers/LibraryPage.tsx:165-175 | after a confirmed clear the readers page starts with nothing owned and the same balance, so a covered reader is bought again under either guard order |
| Library.AgeOfIsAccurate | src/pages/Readers/LibraryPage.tsx:151-163 | for d >= 0 days the label is "Today" iff d = 0, "Yesterday" iff d = 1, "n days ago" iff 2 <= d < 7, weeks iff 7 <= d < 30 and months iff d >= 30, and its bucket contains d |
| Library.TodayAndYesterday | src/pages/Readers/LibraryPage.tsx:151-159 | under 24 hours since the purchase reads "Today", and the next 24 hours read "Yesterday" |
| Carousel.NextSpotlight | src/pages/HomePage.tsx:125-127 | for n > 0 the next index lies in [0, n) |
| Carousel.PrevSpotlight | src/pages/HomePage.tsx:129-133 | for n > 0 the previous index lies in [0, n) |
| Carousel.SpotlightInverse | src/pages/HomePage.tsx:125-133 | on [0, n), previous after next and next after previous are both the identity |
| Carousel.SlidesStayInRangeAndInvert | src/components/Spotlight/SpotlightCarousel.tsx:92-102 | on [0, len) both slide steps stay in range and undo each other |
| Carousel.SlidesAgreeWithSpotlight | src/components/Spotlight/SpotlightCarousel.tsx:92-102 | on [0, len) the explicit wrap-around steps equal the home page's modular ones |
| Carousel.RotateTick | src/components/Spotlight/SpotlightCarousel.tsx:79-90 | the rotation fires only for more than one entry, and then takes the same step as next |
| Carousel.RotateTicksModular | src/components/Spotlight/SpotlightCarousel.tsx:83-87 | k firings from i land on (i + k) mod len |
| Carousel.RotationCycles | src/components/Spotlight/SpotlightCarousel.tsx:79-90 | len firings return to the start, and every entry is reached within one round |
| Carousel.LoadSpotlight | src/components/Spotlight/SpotlightCarousel.tsx:26-69 | there is no error iff the body has a truthy `success`; a thrown request or a null body empties the list with the prefixed message; a successful body shows `data` when it is an array and nothing otherwise; any other body keeps the previous list and shows its `message`, or the fixed text when that is falsy |
| Carousel.LoadSpotlightReplacesUnlessRefused | src/components/Spotlight/SpotlightCarousel.tsx:26-69 | only an unsuccessful, non-null body depends on the list shown before; every other outcome is the same whatever was shown |
| Carousel.LoadSpotlightIdempotent | src/components/Spotlight/SpotlightCarousel.tsx:26-69 | loading the same answer twice ends as loading it once |
| Carousel.LoadSpotlightSources | src/components/Spotlight/SpotlightCarousel.tsx:26-69 | the list shown is the previous one, empty, or the array the server sent as `data` |
| Carousel.NonArraySpotlightIsEmpty | src/components/Spotlight/SpotlightCarousel.tsx:54-69 | a non-array `data`, a thrown request or a null body leave the list empty; a failed body without a message keeps the list and shows the fixed message |
| Json.FirstTruthy | src/pages/HomePage.tsx:66-73 | a chain of `or`-ed candidates yields the first truthy candidate, and the final default when none is truthy |
| Json.OrIsChain | src/pages/Leagues/LeaguesPage.tsx:101-121 | `a` or-ed with a default is the one-candidate chain, and `a` or-ed with (`b` or-ed with the default) is the two-candidate chain |
| Leaderboard.Extract | src/pages/HomePage.tsx:83-104 | an array is returned unchanged; an object yields its first truthy field among `leaderboard`, `data`, `users`, `entries`, else `[]`; anything else yields `[]` |
| Leaderboard.ExtractPrecedence | src/pages/HomePage.tsx:90-97 | each candidate is used exactly when it is truthy and all before it are falsy; no truthy candidate gives no entries |
| Leaderboard.OptionalNumber | src/pages/HomePage.tsx:74-77 | an optional field is present in the row iff it is truthy in the payload, and then holds `Number` of it |
| Leaderboard.Convert | src/pages/HomePage.tsx:51-80 | a falsy or non-object entry gives id "user-i", "Unknown", 0 points and rank i + 1; an object takes the id, name and points from their key chains and a truthy rank as `Number(rank)`, a falsy rank becoming i + 1; accuracy and completion time are `Number` of the field and the subject `String` of it when truthy, and absent otherwise |
| Leaderboard.ConvertRoundTrip | src/pages/HomePage.tsx:64-79 | converting the payload of a row whose tested fields are truthy gives the row back, at any position |
| Leaderboard.ConvertCarrier | src/pages/HomePage.tsx:64-79 | any object holding a row's `_id`, `username`, `totalPoints`, `rank` and optional fields, and none of the competing keys, converts to that row |
| Leaderboard.ZeroRankBecomesPosition | src/pages/HomePage.tsx:73 | a rank of 0, or no rank, becomes the position + 1 |
| Leaderboard.IdPrecedence | src/pages/HomePage.tsx:66-68 | `userId` beats `_id`, which beats `id`; with none of them the id is "user-i" |
| Leaderboard.TopRows | src/pages/HomePage.tsx:151-156 | the rows are the first min(n, 10) extracted entries in order, entry i converted with index i |
| Leaderboard.TopRowsIgnoresTail | src/pages/HomePage.tsx:154-156 | entries after the tenth never affect the rows |
| Leaderboard.UnrankedRowsAreNumberedInOrder | src/pages/HomePage.tsx:152-156 | an unranked entry among the first ten is ranked by its position in the input |
| Leaderboard.LoadBoard | src/pages/HomePage.tsx:145-296 | the page is connected iff the response has truthy `success` and `data`, and then shows the top rows of `data`; there are at most 10 rows; a thrown request and a null body (whose property read throws) show the three sample rows; any other unusable response empties the board |
| Leaderboard.NullBodyShowsSamples | src/pages/HomePage.tsx:145-296 | a null body ends like a thrown request, with the sample rows; an empty object body empties the board |
| Leaderboard.WrappedFailureEmptiesBoard | src/services/api.ts:91-130 | a request failure the API wrapper turns into `{success: false, error}` leaves the board empty and disconnected, without the sample rows, and the statistics at 2547 / 12 / 156 |
| Leaderboard.ConnectedBoardShowsTopTen | src/pages/HomePage.tsx:149-160 | a successful array of ten or more entries shows exactly the first ten, converted in order |
| Leaderboard.StatOf | src/pages/HomePage.tsx:245-253 | a statistic is the primary field when truthy, else the secondary when truthy, else the fixed figure |
| Leaderboard.LoadStats | src/pages/HomePage.tsx:237-267 | every failure keeps 2547 / 12 / 156; a usable response sets all three figures, each from its own key, then its fallback key, then the default |
| Leaderboard.StatNeverZero | src/pages/HomePage.tsx:245-253 | with numeric or missing fields a statistic is never 0 |
| Leaderboard.ZeroStatsShowDefaults | src/pages/HomePage.tsx:241-254 | a payload of zeros shows the fixed figures |
| Leagues.ExtractLeagues | src/pages/Leagues/LeaguesPage.tsx:53-90 | a `leagues` array wins; else with truthy `success` and `data` it is `data` if an array, else `data.leagues` if an array, else nothing; else a direct array; a non-object gives nothing |
| Leagues.ExtractPrecedence | src/pages/Leagues/LeaguesPage.tsx:59-90 | a top-level `leagues` array beats `data`; `data.leagues` is found; a `data` object without either gives nothing even when other arrays exist |
| Leagues.ExtractIgnoresMalformed | src/pages/Leagues/LeaguesPage.tsx:63-84 | a non-array `leagues` is ignored and a falsy `success` skips `data` |
| Leagues.ConvertLeague | src/pages/Leagues/LeaguesPage.tsx:95-123 | the id is `id`, else `_id`, else "league-i"; the name is `String(name)` when truthy and "League i+1" otherwise; participants are `Number(participants)` when that is truthy and 0 otherwise; capacity is `Number(maxParticipants)` when truthy and 1000 otherwise, so never 0; each of description, prize, start and end dates, difficulty, category and status is its own field when truthy and otherwise "No description available", "TBD", now, in two weeks, "Intermediate", "Mixed" and "upcoming" |
| Leagues.ConvertAll | src/pages/Leagues/LeaguesPage.tsx:95-123 | conversion keeps length and order, element i converted with index i |
| Leagues.EmptyLeagueDefaults | src/pages/Leagues/LeaguesPage.tsx:101-121 | an empty or null league gets the defaults: "league-i", "League i+1", 0 of 1000 participants, "TBD", "Intermediate", "Mixed", "upcoming" |
| Leagues.FalsyCountsFallBack | src/pages/Leagues/LeaguesPage.tsx:107-108 | an unparsable participant count is 0, a zero capacity is 1000, and "42" reads as 42 |
| Leagues.ConvertLeagueRoundTrip | src/pages/Leagues/LeaguesPage.tsx:101-121 | converting the payload of a card whose tested fields are truthy gives the card back, at any position and time |
| Leagues.LoadLeagues | src/pages/Leagues/LeaguesPage.tsx:48-138 | a thrown request gives no leagues and the prefixed message; any response clears the error and converts exactly the extracted array |
| Leagues.WrappedFailureShowsNoLeagues | src/services/api.ts:91-130 | a request failure the API wrapper turns into `{success: false, error}` shows no leagues and no error message |
| Leagues.FilteredLeagues | src/pages/Leagues/LeaguesPage.tsx:144-150 | every shown league is on the page and matches category and difficulty ("all" as wildcard), and every matching league is shown |
| Leagues.FilteredLeaguesOrder | src/pages/Leagues/LeaguesPage.tsx:144-150 | the filtered list keeps page order, and all/all shows every league |
| Leagues.NonStringCategoryHidden | src/pages/Leagues/LeaguesPage.tsx:145-146 | strict equality hides a league with a non-string category from every category but "all" |
| Leagues.ActionLabel | src/pages/Leagues/LeaguesPage.tsx:461-465 | "Join Now" iff the status is "active", "Register" iff it is "upcoming", and "Completed" for anything else |
| Leagues.ActionLabelOfConverted | src/pages/Leagues/LeaguesPage.tsx:461-465 | a league sent without a status reads "Register"; "completed" and wrongly cased statuses read "Completed" |
| JsNumber.ParseIntRoundTrip | src/pages/Readers/ReadersPage.tsx:68 | `parseInt` reads back the decimal form of every integer |

## Left out

- Network, `fetch`, axios and the API wrapper's transport. Each request becomes a `Fetched` value or an optional payload. The wrapper (`src/services/api.ts:91-130`) catches every request error and resolves to `{success: false, error}` (`Json.ApiFailure`), so the `Threw` branches of `Leaderboard.LoadBoard`, `Leaderboard.LoadStats` and `Leagues.LoadLeagues` model only errors thrown after the response arrives. A network failure leaves the board empty and disconnected with no sample rows (`Leaderboard.WrappedFailureEmptiesBoard`), and shows no leagues and no error message (`Leagues.WrappedFailureShowsNoLeagues`). The challenge gets no payload, so `Quiz.Load` shows "Failed to load league challenge".
- `alert`, `confirm` and navigation. Navigation is an outcome tag; `confirm` is a boolean parameter of `Library.ClearLibrary`.
- `localStorage`, `JSON.parse` and `URL` parsing. Storage is a `Storage` value and a download link is its token as `Option<int>`. An empty URL, a missing token and a token `parseInt` cannot read are all `None`.
- `setInterval`/`setTimeout` timing, React effects, re-renders and stale closures. This includes the 10-second tick interval (each `Tick` is one firing), the two-second simulated waits and the five-second rotation interval.
- Floating point. Numbers are integers. Accuracy, completion time and score use exact rational arithmetic with round-half-up and floor. JavaScript's floats can land on the other side of a .5 boundary: 23 of 40 gives 58 here but 57 in the browser. The progress and registration bars, `accuracy * 100` in the leaderboard views and `toLocaleString` are not modelled.
- Reader conversion in the catalog fetch (ReadersPage.tsx:87-179). Its fallbacks for rating, reviews and downloads draw `Math.random()`. Readers are given as records; only the premium and price derivation is modelled (`Readers.PremiumDerivation`). Ratings are integers.
- The home page's spotlight processing and its static fallback entries (HomePage.tsx:171-234). They are display data with clock-dependent dates; the spotlight index arithmetic is modelled.
- Objects with a numeric `length` property, which the leaderboard loop would treat as array-like. Only arrays and strings have elements here.
- `Number`/`parseInt` on text with spaces, hexadecimal, exponents or fractions. Strings are read as optional sign plus decimal digits.
- Unicode case folding. `toLowerCase` is modelled on ASCII letters only.
- The render crash on a league with an empty question list. `Quiz.InQuiz` keeps every quiz action disabled for it.
- The `!league || !leagueId` guard of `submitQuiz`. The league is always loaded in a session and the route parameter is always present.
- The submission request after scoring and its error alert; they do not change the page state the model covers.
- Purchase prices that are NaN; prices are integers.
- The Chrome wording of the error thrown when a spotlight body is `null` or `undefined`. `Carousel.LoadSpotlight` uses that wording; other browsers word it differently.
- `GlobalLeaderboard.tsx`, `Leaderboard.tsx`, `LeaguesEntry.tsx`, `Header.tsx`, `App.tsx`, `main.tsx` and `i18n/config.ts`. They only fetch and display data or wire up routes.
- Quiz.FormatTimeRoundTrip: stated for non-negative seconds only. A negative completion time renders with negative minutes and seconds (-65 s as "-2:-5"), which `Quiz.JsRem` models but no lemma reads back.
- Readers.FilteredReaders: its own contract states only the permutation; membership and order are in `Readers.FilteredIsExactlyTheMatches` and `Readers.FilteredOrder`.

## Findings

| source | as written | input that shows it | evidently intended | confidence | as-written member | corrected member |
|---|---|---|---|---|---|---|
| src/pages/Readers/ReadersPage.tsx:190-206 | the purchase handler checks the balance before ownership | an owned reader priced 200 with a balance of 50: the button is enabled because it is owned (lines 752-755), but the click records "Insufficient credits!" instead of opening the library | an owned reader always opens the library, as the button's enabling condition assumes | not executed | Readers.Purchase, Readers.OwnedButShortIsRefused | Readers.PurchaseOwnedFirst, Readers.OrdersAgreeOtherwise |

=== FILE: arith.dfy ===
/** Small facts of integer arithmetic that the solver does not find alone. */
module Arith {
  /** Multiplying by a non-negative factor keeps order. */
  lemma MulMono(d: int, x: int, y: int)
    requires d >= 0 && x <= y
    ensures d * x <= d * y
  {
    assert d * y - d * x == d * (y - x);
  }

  /** Quotient and remainder are unique. */
  lemma ModUnique(x: int, n: int, q: int, r: int)
    requires n > 0 && 0 <= r < n && x == q * n + r
    ensures x % n == r
  {
    var d := q - x / n;
    assert d * n == x % n - r by {
      assert x == (x / n) * n + x % n;
      assert d * n == q * n - (x / n) * n;
    }
    if d >= 1 {
      MulMono(n, 1, d);
      assert false;
    }
    if d <= -1 {
      MulMono(n, d, -1);
      assert false;
    }
  }

  /** `x % n` for `x` in [0, 2n). */
  lemma ModSmall(x: int, n: int)
    requires n > 0 && 0 <= x < 2 * n
    ensures x % n == if x < n then x else x - n
  {
    if x < n {
      ModUnique(x, n, 0, x);
    } else {
      ModUnique(x, n, 1, x - n);
    }
  }
}

=== FILE: carousel.dfy ===
/** The two spotlight carousels: the home page steps its index with modular
    arithmetic, the spotlight component with explicit wrap-around tests.
    Both auto-rotate only when there is more than one entry. */
module Carousel {
  import opened Json
  import opened Arith

  // ---------------------------------------------------------------------
  // Home page: `(i + 1) % n` and `(i - 1 + n) % n`

  /** `nextSpotlight`; the arrows are on screen only for a non-empty list. */
  function NextSpotlight(i: nat, n: nat): (r: nat)
    requires n > 0
    ensures r < n
  {
    (i + 1) % n
  }

  /** `prevSpotlight`. */
  function PrevSpotlight(i: nat, n: nat): (r: nat)
    requires n > 0
    ensures r < n
  {
    (i - 1 + n) % n
  }

  /** Back after forward, and forward after back, is where one started. */
  lemma SpotlightInverse(i: nat, n: nat)
    requires i < n
    ensures PrevSpotlight(NextSpotlight(i, n), n) == i
    ensures NextSpotlight(PrevSpotlight(i, n), n) == i
  {
    ModSmall(i + 1, n);
    ModSmall(i - 1 + n, n);
    var x := NextSpotlight(i, n);
    ModSmall(x - 1 + n, n);
    var y := PrevSpotlight(i, n);
    ModSmall(y + 1, n);
  }

  // ---------------------------------------------------------------------
  // Spotlight component: explicit wrap-around

  /** `nextSlide`: the last index wraps to 0. */
  function NextSlide(i: int, len: int): int {
    if i == len - 1 then 0 else i + 1
  }

  /** `prevSlide`: index 0 wraps to the last index. */
  function PrevSlide(i: int, len: int): int {
    if i == 0 then len - 1 else i - 1
  }

  /** On valid indices the slides stay valid and undo each other. */
  lemma SlidesStayInRangeAndInvert(i: int, len: int)
    requires 0 <= i < len
    ensures 0 <= NextSlide(i, len) < len && 0 <= PrevSlide(i, len) < len
    ensures PrevSlide(NextSlide(i, len), len) == i
    ensures NextSlide(PrevSlide(i, len), len) == i
  {
  }

  /** The two carousels step alike on every valid index. */
  lemma SlidesAgreeWithSpotlight(i: nat, len: nat)
    requires i < len
    ensures NextSlide(i, len) == NextSpotlight(i, len)
    ensures PrevSlide(i, len) == PrevSpotlight(i, len)
  {
    ModSmall(i + 1, len);
    ModSmall(i - 1 + len, len);
  }

  /** Whether the five-second rotation interval is installed (both pages use
      the same condition). */
  predicate AutoRotates(len: int) {
    len > 1
  }

  /** One firing of the rotation interval; without an interval the index
      stays put. */
  function RotateTick(i: int, len: int): (r: int)
    ensures AutoRotates(len) ==> r == NextSlide(i, len)
    ensures !AutoRotates(len) ==> r == i
  {
    if AutoRotates(len) then NextSlide(i, len) else i
  }

  function RotateTicks(i: int, len: int, k: nat): int {
    if k == 0 then i else RotateTick(RotateTicks(i, len, k - 1), len)
  }

  /** One step from the residue of `x` is the residue of `x + 1`. */
  lemma NextSlideOfResidue(x: nat, len: int)
    requires len > 0
    ensures NextSlide(x % len, len) == (x + 1) % len
  {
    var j := x % len;
    var q := x / len;
    assert x == q * len + j;
    if j + 1 < len {
      ModUnique(x + 1, len, q, j + 1);
    } else {
      assert x + 1 == (q + 1) * len + 0;
      ModUnique(x + 1, len, q + 1, 0);
    }
  }

  /** After `k` firings the index has moved `k` places round the ring. */
  lemma {:induction false} RotateTicksModular(i: int, len: int, k: nat)
    requires AutoRotates(len) && 0 <= i < len
    ensures RotateTicks(i, len, k) == (i + k) % len
  {
    if k == 0 {
      ModUnique(i, len, 0, i);
    } else {
      RotateTicksModular(i, len, k - 1);
      NextSlideOfResidue(i + k - 1, len);
    }
  }

  /** The rotation is back at the start after one full round, and reaches
      every entry on the way. */
  lemma RotationCycles(i: int, len: int, j: int)
    requires AutoRotates(len) && 0 <= i < len && 0 <= j < len
    ensures RotateTicks(i, len, len as nat) == i
    ensures j >= i ==> RotateTicks(i, len, (j - i) as nat) == j
    ensures j < i ==> RotateTicks(i, len, (j - i + len) as nat) == j
  {
    RotateTicksModular(i, len, len as nat);
    ModSmall(i + len, len);
    if j >= i {
      RotateTicksModular(i, len, (j - i) as nat);
      ModSmall(j, len);
    } else {
      RotateTicksModular(i, len, (j - i + len) as nat);
      ModSmall(j + len, len);
    }
  }

  // ---------------------------------------------------------------------
  // Loading the spotlight list

  /** The spotlight list and the error value shown instead of it when
      truthy (the value itself is rendered, so it stays a JSON value). */
  datatype SpotlightState = SpotlightState(entries: seq<Json>, error: Json)

  const SpotlightFailed := "Failed to load spotlight data"
  const SpotlightErrorPrefix := "Error loading spotlight data: "

  /** The message of the `TypeError` raised by reading `success` of a
      `null` or `undefined` body. */
  function NullishReadMessage(body: Json): string {
    "Cannot read properties of " + (if body.JNull? then "null" else "undefined") + " (reading 'success')"
  }

  /** `fetchSpotlightData`. A thrown error (network failure, non-2xx status,
      non-JSON content type) empties the list; so does a `null` body, on
      which reading `data.success` throws. A body with a truthy `success`
      shows its `data` when that is an array and nothing otherwise; a body
      without one keeps the previous list and shows its `message`. */
  function LoadSpotlight(prev: seq<Json>, f: Fetched): (s: SpotlightState)
    ensures !Truthy(s.error) <==> f.Resolved? && Truthy(Field(f.body, "success"))
    ensures f.Threw? ==> s == SpotlightState([], JStr(SpotlightErrorPrefix + f.message))
    ensures f.Resolved? && Nullish(f.body) ==>
      s == SpotlightState([], JStr(SpotlightErrorPrefix + NullishReadMessage(f.body)))
    ensures f.Resolved? && Truthy(Field(f.body, "success")) ==>
      s.entries == (if Field(f.body, "data").JArr? then Field(f.body, "data").items else [])
    ensures f.Resolved? && !Nullish(f.body) && !Truthy(Field(f.body, "success")) ==>
      && s.entries == prev
      && (Truthy(Field(f.body, "message")) ==> s.error == Field(f.body, "message"))
      && (!Truthy(Field(f.body, "message")) ==> s.error == JStr(SpotlightFailed))
  {
    match f
    case Threw(message) => SpotlightState([], JStr(SpotlightErrorPrefix + message))
    case Resolved(data) =>
      if Nullish(data) then
        SpotlightState([], JStr(SpotlightErrorPrefix + NullishReadMessage(data)))
      else if Truthy(Field(data, "success")) then
        var d := Field(data, "data");
        SpotlightState(if d.JArr? then d.items else [], JStr(""))
      else
        SpotlightState(prev, FirstTruthy([Field(data, "message")], JStr(SpotlightFailed)))
  }

  /** Only an unsuccessful, non-null answer depends on the list shown
      before; every other outcome replaces it. */
  lemma LoadSpotlightReplacesUnlessRefused(p1: seq<Json>, p2: seq<Json>, f: Fetched)
    requires !(f.Resolved? && !Nullish(f.body) && !Truthy(Field(f.body, "success")))
    ensures LoadSpotlight(p1, f) == LoadSpotlight(p2, f)
  {
  }

  /** Loading the same answer again changes nothing: the list shown after
      one load is the list shown after two. */
  lemma LoadSpotlightIdempotent(prev: seq<Json>, f: Fetched)
    ensures LoadSpotlight(LoadSpotlight(prev, f).entries, f) == LoadSpotlight(prev, f)
  {
  }

  /** Whatever the answer, the list shown is the previous one, empty, or an
      array the server sent as `data`. */
  lemma LoadSpotlightSources(prev: seq<Json>, f: Fetched)
    ensures var s := LoadSpotlight(prev, f);
      || s.entries == prev
      || s.entries == []
      || (f.Resolved? && Field(f.body, "data").JArr? && s.entries == Field(f.body, "data").items)
  {
  }

  /** A successful body whose `data` is not an array, or any failure, leaves
      the list empty; an unsuccessful body shows the fixed message when it
      carries none. */
  lemma NonArraySpotlightIsEmpty(prev: seq<Json>, d: Json, msg: string)
    requires !d.JArr?
    ensures LoadSpotlight(prev, Resolved(JObj(map["success" := JBool(true), "data" := d]))).entries == []
    ensures LoadSpotlight(prev, Threw(msg)).entries == []
    ensures LoadSpotlight(prev, Resolved(JNull)).entries == []
    ensures LoadSpotlight(prev, Resolved(JObj(map["success" := JBool(false)]))) == SpotlightState(prev, JStr(SpotlightFailed))
  {
  }
}

=== FILE: decimal.dfy ===
/** Decimal digit strings: rendering naturals and integers the way
    JavaScript's `String(n)` does for integral numbers, and reading digit
    strings back. */
module Decimal {

  predicate IsDigit(c: char) {
    '0' <= c <= '9'
  }

  predicate AllDigits(s: string) {
    forall i :: 0 <= i < |s| ==> IsDigit(s[i])
  }

  function DigitChar(d: nat): (c: char)
    requires d < 10
    ensures IsDigit(c)
    ensures c as int - '0' as int == d
  {
    ('0' as int + d) as char
  }

  function DigitValue(c: char): (d: nat)
    requires IsDigit(c)
    ensures d < 10
    ensures DigitChar(d) == c
  {
    c as int - '0' as int
  }

  /** The shortest decimal rendering of `n`: at least one digit and no
      leading zero. */
  function NatToString(n: nat): (s: string)
    ensures |s| >= 1
    ensures AllDigits(s)
    ensures |s| > 1 ==> s[0] != '0'
    decreases n
  {
    if n < 10 then [DigitChar(n)] else NatToString(n / 10) + [DigitChar(n % 10)]
  }

  /** The number a digit string denotes (the empty string denotes 0). */
  function DigitsValue(s: string): nat
    requires AllDigits(s)
  {
    if |s| == 0 then 0 else DigitsValue(s[..|s| - 1]) * 10 + DigitValue(s[|s| - 1])
  }

  /** Reading back a rendered natural gives the natural. */
  lemma {:induction false} NatToStringRoundTrip(n: nat)
    ensures DigitsValue(NatToString(n)) == n
    decreases n
  {
    if n >= 10 {
      var s := NatToString(n);
      var p := NatToString(n / 10);
      assert s == p + [DigitChar(n % 10)];
      assert s[..|s| - 1] == p;
      NatToStringRoundTrip(n / 10);
    }
  }

  /** Distinct naturals render differently. */
  lemma NatToStringInjective(m: nat, n: nat)
    requires NatToString(m) == NatToString(n)
    ensures m == n
  {
    NatToStringRoundTrip(m);
    NatToStringRoundTrip(n);
  }

  /** `String(i)` for an integral JavaScript number. */
  function IntToString(i: int): (s: string)
    ensures |s| >= 1
    ensures i >= 0 <==> IsDigit(s[0])
    ensures i < 0 <==> s[0] == '-'
  {
    if i < 0 then "-" + NatToString(-i) else NatToString(i)
  }

  /** `String(n).padStart(2, "0")`. */
  function PadTwo(s: string): (r: string)
    ensures |r| == if |s| < 2 then 2 else |s|
    ensures r[|r| - |s|..] == s
    ensures forall i :: 0 <= i < |r| - |s| ==> r[i] == '0'
  {
    if |s| < 2 then seq(2 - |s|, _ => '0') + s else s
  }
}

=== FILE: jsnumber.dfy ===
/** JavaScript numbers restricted to the integral values this application
    handles, plus `NaN`, and the two string-to-number conversions it uses:
    `parseInt` (credits read back from local storage) and `Number` (loosely
    typed JSON fields). */
module JsNumber {
  import opened Decimal

  datatype Num = Finite(n: int) | NaN {

    /** JavaScript truthiness of a number: 0 and NaN are falsy. */
    predicate Truthy() {
      Finite? && n != 0
    }

    /** `x || d` for a number `x` and an integer default `d`. */
    function OrElse(d: int): (r: int)
      ensures Truthy() ==> r == n
      ensures !Truthy() ==> r == d
    {
      if Truthy() then n else d
    }

    /** `x < y` for an integer `y`: `NaN` compares false. */
    predicate Below(y: int) {
      Finite? && n < y
    }

    /** `x - y` for an integer `y`: `NaN` stays `NaN`. */
    function Minus(y: int): (r: Num)
      ensures r.NaN? <==> NaN?
      ensures Finite? ==> r.n + y == n
    {
      if NaN? then NaN else Finite(n - y)
    }
  }

  /** Length of the longest prefix of `s` made of decimal digits. */
  function DigitPrefix(s: string): (k: nat)
    ensures k <= |s|
    ensures AllDigits(s[..k])
    ensures k < |s| ==> !IsDigit(s[k])
  {
    if |s| == 0 || !IsDigit(s[0]) then 0
    else
      var k := 1 + DigitPrefix(s[1..]);
      assert s[..k] == [s[0]] + s[1..][..k - 1];
      k
  }

  lemma {:induction false} DigitPrefixOfDigits(s: string)
    requires AllDigits(s)
    ensures DigitPrefix(s) == |s|
  {
    if |s| > 0 {
      DigitPrefixOfDigits(s[1..]);
    }
  }

  /** Splits an optional leading sign off `s`: the result is whether the
      number is negative and the remainder. */
  function SplitSign(s: string): (r: (bool, string))
    ensures r.0 ==> |s| > 0 && s[0] == '-'
    ensures |r.1| + 1 == |s| || r.1 == s
  {
    if |s| > 0 && s[0] == '-' then (true, s[1..])
    else if |s| > 0 && s[0] == '+' then (false, s[1..])
    else (false, s)
  }

  function Signed(neg: bool, v: nat): int {
    if neg then -(v as int) else v
  }

  /** `parseInt(s)`: an optional sign followed by the longest run of decimal
      digits; `NaN` when there is no digit. */
  function ParseInt(s: string): (r: Num)
    ensures r.NaN? <==> DigitPrefix(SplitSign(s).1) == 0
  {
    var (neg, rest) := SplitSign(s);
    var k := DigitPrefix(rest);
    if k == 0 then NaN else Finite(Signed(neg, DigitsValue(rest[..k])))
  }

  /** `Number(s)` for a string: the empty string is 0, an optionally signed
      run of decimal digits is its value, anything else is `NaN`. */
  function StringToNumber(s: string): (r: Num)
    ensures s == "" ==> r == Finite(0)
    ensures r.Finite? && s != "" ==> IsDigit(s[|s| - 1])
  {
    if s == "" then Finite(0)
    else
      var (neg, rest) := SplitSign(s);
      if rest != "" && AllDigits(rest) then Finite(Signed(neg, DigitsValue(rest))) else NaN
  }

  /** `String(x)` for a number. */
  function NumToString(x: Num): string {
    match x
    case Finite(n) => IntToString(n)
    case NaN => "NaN"
  }

  /** `parseInt` reads back what `String` wrote: a value stored as text in
      local storage survives the round trip. */
  lemma ParseIntRoundTrip(i: int)
    ensures ParseInt(IntToString(i)) == Finite(i)
  {
    var s := IntToString(i);
    var m: nat := if i < 0 then -i else i;
    var digits := NatToString(m);
    assert SplitSign(s).1 == digits;
    DigitPrefixOfDigits(digits);
    assert digits[..|digits|] == digits;
    NatToStringRoundTrip(m);
  }

  /** The same for any number, `NaN` included: `String(NaN)` is "NaN",
      which has no leading digit. */
  lemma ParseIntNumRoundTrip(x: Num)
    ensures ParseInt(NumToString(x)) == x
  {
    match x
    case Finite(i) => ParseIntRoundTrip(i);
    case NaN =>
      assert SplitSign("NaN").1 == "NaN";
      assert !IsDigit("NaN"[0]);
  }

  /** `Number` reads back what `String` wrote. */
  lemma StringToNumberRoundTrip(i: int)
    ensures StringToNumber(IntToString(i)) == Finite(i)
  {
    var m: nat := if i < 0 then -i else i;
    assert SplitSign(IntToString(i)).1 == NatToString(m);
    NatToStringRoundTrip(m);
  }
}

=== FILE: json.dfy ===
/** Loosely typed JSON as the application receives it from the backend,
    with the JavaScript semantics its reshaping code relies on: truthiness,
    property lookup that yields `undefined`, `a || b || c` chains, and the
    `String(...)`/`Number(...)` conversions. */
module Json {
  import opened Decimal
  import opened JsNumber

  /** A JavaScript value that can come out of a parsed JSON payload, plus
      `undefined` for a missing property. Numbers are integral. */
  datatype Json =
    | JUndefined
    | JNull
    | JBool(b: bool)
    | JNum(n: int)
    | JStr(s: string)
    | JArr(items: seq<Json>)
    | JObj(fields: map<string, Json>)

  /** JavaScript truthiness: `undefined`, `null`, `false`, `0` and `""` are
      falsy; every array and object is truthy, even an empty one. */
  predicate Truthy(j: Json) {
    match j
    case JUndefined => false
    case JNull => false
    case JBool(b) => b
    case JNum(n) => n != 0
    case JStr(s) => s != ""
    case JArr(_) => true
    case JObj(_) => true
  }

  /** `!!x && typeof x === "object"`: arrays count as objects. */
  predicate IsObjectLike(j: Json) {
    j.JArr? || j.JObj?
  }

  /** `x.k` / `x?.k`: a missing property, or a property of a value that is
      not an object, reads as `undefined`. */
  function Field(j: Json, k: string): (r: Json)
    ensures !j.JObj? ==> r == JUndefined
    ensures j.JObj? && k !in j.fields ==> r == JUndefined
    ensures j.JObj? && k in j.fields ==> r == j.fields[k]
  {
    if j.JObj? && k in j.fields then j.fields[k] else JUndefined
  }

  /** `null` and `undefined`: reading a property of either throws a
      `TypeError`, where every other value reads as `Field` says. */
  predicate Nullish(j: Json) {
    j.JNull? || j.JUndefined?
  }

  /** `c0 || c1 || ... || last`: the first truthy candidate, or `last`
      when none is truthy. */
  function FirstTruthy(cands: seq<Json>, last: Json): (r: Json)
    ensures (forall i :: 0 <= i < |cands| ==> !Truthy(cands[i])) ==> r == last
    ensures forall i :: (0 <= i < |cands| && Truthy(cands[i]) &&
              (forall j :: 0 <= j < i ==> !Truthy(cands[j]))) ==> r == cands[i]
  {
    if |cands| == 0 then last
    else if Truthy(cands[0]) then cands[0]
    else FirstTruthy(cands[1..], last)
  }

  /** The chains of one, two and three candidates written out. */
  lemma FirstTruthyShort(a: Json, b: Json, c: Json, last: Json)
    ensures FirstTruthy([a], last) == if Truthy(a) then a else last
    ensures FirstTruthy([a, b], last) == if Truthy(a) then a else if Truthy(b) then b else last
    ensures FirstTruthy([a, b, c], last) ==
      if Truthy(a) then a else if Truthy(b) then b else if Truthy(c) then c else last
  {
    assert [a][1..] == [] && [a, b][1..] == [b] && [a, b, c][1..] == [b, c] && [b, c][1..] == [c];
    assert FirstTruthy([b, c], last) == if Truthy(b) then b else FirstTruthy([c], last);
    assert FirstTruthy([c], last) == if Truthy(c) then c else last by {
      assert FirstTruthy([c][1..], last) == last;
    }
  }

  /** `a || b`, the chain of one candidate. */
  function Or(a: Json, b: Json): Json {
    if Truthy(a) then a else b
  }

  /** `a || b` is the chain of the one candidate `a`, and `a || (b || c)`
      the chain of two. */
  lemma OrIsChain(a: Json, b: Json, last: Json)
    ensures Or(a, last) == FirstTruthy([a], last)
    ensures Or(a, Or(b, last)) == FirstTruthy([a, b], last)
  {
    FirstTruthyShort(a, b, b, last);
  }

  /** The values of fields `keys` of `j`, in order. */
  function Fields(j: Json, keys: seq<string>): (r: seq<Json>)
    ensures |r| == |keys|
    ensures forall i :: 0 <= i < |keys| ==> r[i] == Field(j, keys[i])
  {
    seq(|keys|, i requires 0 <= i < |keys| => Field(j, keys[i]))
  }

  /** `j.k0 || j.k1 || ... || last`. */
  function FirstTruthyField(j: Json, keys: seq<string>, last: Json): Json {
    FirstTruthy(Fields(j, keys), last)
  }

  /** The text an array element contributes to `Array.prototype.join`. */
  function JoinPart(j: Json): string
    decreases j, 1
  {
    if j.JUndefined? || j.JNull? then "" else ToStr(j)
  }

  function JoinWithCommas(parts: seq<string>): string {
    if |parts| == 0 then ""
    else if |parts| == 1 then parts[0]
    else parts[0] + "," + JoinWithCommas(parts[1..])
  }

  /** `String(j)`. */
  function ToStr(j: Json): string
    decreases j, 0
  {
    match j
    case JUndefined => "undefined"
    case JNull => "null"
    case JBool(b) => if b then "true" else "false"
    case JNum(n) => IntToString(n)
    case JStr(s) => s
    case JArr(items) =>
      JoinWithCommas(seq(|items|, i requires 0 <= i < |items| => JoinPart(items[i])))
    case JObj(_) => "[object Object]"
  }

  /** `Number(j)`; an array converts through its string form. */
  function ToNumber(j: Json): Num {
    match j
    case JUndefined => NaN
    case JNull => Finite(0)
    case JBool(b) => Finite(if b then 1 else 0)
    case JNum(n) => Finite(n)
    case JStr(s) => StringToNumber(s)
    case JArr(_) => StringToNumber(ToStr(j))
    case JObj(_) => NaN
  }

  /** The view `for (i = 0; i < x.length; i++) x[i]` has of a value: the
      elements of an array, the one-character strings of a string, and
      nothing for any other value. */
  function Elements(j: Json): (r: seq<Json>)
    ensures j.JArr? ==> r == j.items
    ensures j.JStr? ==> |r| == |j.s|
    ensures !j.JArr? && !j.JStr? ==> r == []
  {
    match j
    case JArr(items) => items
    case JStr(s) => seq(|s|, i requires 0 <= i < |s| => JStr([s[i]]))
    case _ => []
  }

  /** How a request ended: with a thrown error carrying its message, or
      with a parsed JSON body. */
  datatype Fetched = Threw(message: string) | Resolved(body: Json)

  /** The body the API wrapper resolves to when a request fails: it catches
      every request error and answers `{success: false, error}` instead of
      throwing. */
  function ApiFailure(message: string): (r: Json)
    ensures !Truthy(Field(r, "success")) && Field(r, "error") == JStr(message)
  {
    JObj(map["success" := JBool(false), "error" := JStr(message)])
  }

  /** A string always converts to itself, and a number to its decimal
      form, which `Number` reads back. */
  lemma ToStrToNumber(n: int)
    ensures ToStr(JNum(n)) == IntToString(n)
    ensures ToNumber(JStr(ToStr(JNum(n)))) == Finite(n)
  {
    StringToNumberRoundTrip(n);
  }

  /** The conversions on arrays: `[]` is `""` and 0, a one-element array
      converts like its element's string form. */
  lemma ArrayConversions(x: Json)
    ensures ToStr(JArr([])) == "" && ToNumber(JArr([])) == Finite(0)
    ensures ToStr(JArr([x])) == JoinPart(x)
    ensures ToNumber(JArr([x])) == StringToNumber(JoinPart(x))
  {
    assert seq(1, i requires 0 <= i < 1 => JoinPart([x][i])) == [JoinPart(x)];
  }
}

=== FILE: leaderboard.dfy ===
/** The home page's reshaping of backend payloads: locating the leaderboard
    array in whatever shape the response has, turning each loosely typed
    entry into a view record through first-truthy fallback chains, keeping
    the top ten, and the platform statistics with their fixed fallbacks. */
module Leaderboard {
  import opened Wrappers
  import opened Decimal
  import opened JsNumber
  import opened Json

  /** Number of entries the home page shows. */
  const TopCount := 10

  /** Where the entries of an object payload may live, in the order tried. */
  const ArrayKeys := ["leaderboard", "data", "users", "entries"]

  const IdKeys := ["userId", "_id", "id"]
  const NameKeys := ["username", "name"]
  const PointKeys := ["totalScore", "totalPoints", "points"]

  /** A leaderboard row as the page renders it. */
  datatype Entry = Entry(
    id: string,
    username: string,
    totalPoints: Num,
    rank: Num,
    accuracy: Option<Num>,
    completionTime: Option<Num>,
    subject: Option<string>)

  // ---------------------------------------------------------------------
  // Locating the array

  /** `extractLeaderboardData`: an array is returned as it is; an object
      yields its first truthy candidate field (whatever its type); anything
      else yields an empty array. */
  function Extract(d: Json): (r: Json)
    ensures d.JArr? ==> r == d
    ensures d.JObj? ==> r == FirstTruthyField(d, ArrayKeys, JArr([]))
    ensures !IsObjectLike(d) ==> r == JArr([])
  {
    if d.JArr? then d
    else if Truthy(d) && IsObjectLike(d) then FirstTruthyField(d, ArrayKeys, JArr([]))
    else JArr([])
  }

  /** The precedence of the candidate fields: `leaderboard` wins whenever it
      is truthy, `entries` is read only when all three before it are falsy,
      and an object without any truthy candidate gives no entries. */
  lemma ExtractPrecedence(fields: map<string, Json>)
    ensures var d := JObj(fields);
      && (Truthy(Field(d, "leaderboard")) ==> Extract(d) == Field(d, "leaderboard"))
      && (!Truthy(Field(d, "leaderboard")) && Truthy(Field(d, "data")) ==> Extract(d) == Field(d, "data"))
      && (!Truthy(Field(d, "leaderboard")) && !Truthy(Field(d, "data")) && Truthy(Field(d, "users")) ==>
            Extract(d) == Field(d, "users"))
      && (!Truthy(Field(d, "leaderboard")) && !Truthy(Field(d, "data")) && !Truthy(Field(d, "users")) ==>
            Extract(d) == FirstTruthy([Field(d, "entries")], JArr([])))
      && ((forall k :: k in ArrayKeys ==> !Truthy(Field(d, k))) ==> Elements(Extract(d)) == [])
  {
    var d := JObj(fields);
    var fs := Fields(d, ArrayKeys);
    assert fs == [Field(d, "leaderboard"), Field(d, "data"), Field(d, "users"), Field(d, "entries")];
    if !Truthy(fs[0]) && !Truthy(fs[1]) && !Truthy(fs[2]) {
      assert FirstTruthy(fs, JArr([])) == FirstTruthy(fs[3..], JArr([]));
    }
    if forall k :: k in ArrayKeys ==> !Truthy(Field(d, k)) {
      assert forall i :: 0 <= i < |fs| ==> fs[i] == Field(d, ArrayKeys[i]) && ArrayKeys[i] in ArrayKeys;
    }
  }

  // ---------------------------------------------------------------------
  // Converting one entry

  /** The row for a missing or non-object entry at `index`. */
  function Placeholder(index: nat): Entry {
    Entry("user-" + NatToString(index), "Unknown", Finite(0), Finite(index + 1), None, None, None)
  }

  /** `x ? conv(x) : undefined` for the optional numeric fields. */
  function OptionalNumber(x: Json): (r: Option<Num>)
    ensures r.Some? <==> Truthy(x)
    ensures Truthy(x) ==> r == Some(ToNumber(x))
  {
    if Truthy(x) then Some(ToNumber(x)) else None
  }

  /** `convertToLeaderboardEntry`. Arrays count as objects here, but none of
      the looked-up keys exist on them, so they get the object defaults. */
  function Convert(e: Json, index: nat): (r: Entry)
    ensures !Truthy(e) || !IsObjectLike(e) ==> r == Placeholder(index)
    ensures Truthy(e) && IsObjectLike(e) ==>
      && r.id == ToStr(FirstTruthyField(e, IdKeys, JStr("user-" + NatToString(index))))
      && r.username == ToStr(FirstTruthyField(e, NameKeys, JStr("Anonymous")))
      && r.totalPoints == ToNumber(FirstTruthyField(e, PointKeys, JNum(0)))
      && (Truthy(Field(e, "rank")) ==> r.rank == ToNumber(Field(e, "rank")))
      && (!Truthy(Field(e, "rank")) ==> r.rank == Finite(index + 1))
      && (r.accuracy.Some? <==> Truthy(Field(e, "accuracy")))
      && (r.completionTime.Some? <==> Truthy(Field(e, "completionTime")))
      && (r.subject.Some? <==> Truthy(Field(e, "subject")))
      && (Truthy(Field(e, "accuracy")) ==> r.accuracy == Some(ToNumber(Field(e, "accuracy"))))
      && (Truthy(Field(e, "completionTime")) ==> r.completionTime == Some(ToNumber(Field(e, "completionTime"))))
      && (Truthy(Field(e, "subject")) ==> r.subject == Some(ToStr(Field(e, "subject"))))
  {
    if !Truthy(e) || !IsObjectLike(e) then Placeholder(index)
    else
      var subject := Field(e, "subject");
      Entry(
        ToStr(FirstTruthyField(e, IdKeys, JStr("user-" + NatToString(index)))),
        ToStr(FirstTruthyField(e, NameKeys, JStr("Anonymous"))),
        ToNumber(FirstTruthyField(e, PointKeys, JNum(0))),
        ToNumber(FirstTruthy([Field(e, "rank")], JNum(index + 1))),
        OptionalNumber(Field(e, "accuracy")),
        OptionalNumber(Field(e, "completionTime")),
        if Truthy(subject) then Some(ToStr(subject)) else None)
  }

  /** The payload a well-behaved backend sends for a row: `_id`, `username`,
      `totalPoints`, `rank`, and the optional fields when present. */
  function EntryToJson(e: Entry): (r: Json)
    requires e.totalPoints.Finite? && e.rank.Finite?
    requires e.accuracy.Some? ==> e.accuracy.value.Finite?
    requires e.completionTime.Some? ==> e.completionTime.value.Finite?
    ensures r.JObj?
  {
    var base := map["_id" := JStr(e.id), "username" := JStr(e.username),
                    "totalPoints" := JNum(e.totalPoints.n), "rank" := JNum(e.rank.n)];
    var withAcc := if e.accuracy.Some? then base["accuracy" := JNum(e.accuracy.value.n)] else base;
    var withTime := if e.completionTime.Some? then withAcc["completionTime" := JNum(e.completionTime.value.n)] else withAcc;
    JObj(if e.subject.Some? then withTime["subject" := JStr(e.subject.value)] else withTime)
  }

  /** The four keys every payload carries. */
  lemma PayloadRequired(e: Entry)
    requires e.totalPoints.Finite? && e.rank.Finite?
    requires e.accuracy.Some? ==> e.accuracy.value.Finite?
    requires e.completionTime.Some? ==> e.completionTime.value.Finite?
    ensures var r := EntryToJson(e);
      && Field(r, "_id") == JStr(e.id) && Field(r, "username") == JStr(e.username)
      && Field(r, "totalPoints") == JNum(e.totalPoints.n) && Field(r, "rank") == JNum(e.rank.n)
  {
  }

  /** The keys a payload never carries. */
  lemma PayloadAbsent(e: Entry)
    requires e.totalPoints.Finite? && e.rank.Finite?
    requires e.accuracy.Some? ==> e.accuracy.value.Finite?
    requires e.completionTime.Some? ==> e.completionTime.value.Finite?
    ensures var r := EntryToJson(e);
      && Field(r, "userId") == JUndefined && Field(r, "id") == JUndefined && Field(r, "name") == JUndefined
      && Field(r, "totalScore") == JUndefined && Field(r, "points") == JUndefined
  {
  }

  /** The optional keys are present exactly when the row has them. */
  lemma PayloadOptional(e: Entry)
    requires e.totalPoints.Finite? && e.rank.Finite?
    requires e.accuracy.Some? ==> e.accuracy.value.Finite?
    requires e.completionTime.Some? ==> e.completionTime.value.Finite?
    ensures var r := EntryToJson(e);
      && Field(r, "accuracy") == (if e.accuracy.Some? then JNum(e.accuracy.value.n) else JUndefined)
      && Field(r, "completionTime") ==
           (if e.completionTime.Some? then JNum(e.completionTime.value.n) else JUndefined)
      && Field(r, "subject") == (if e.subject.Some? then JStr(e.subject.value) else JUndefined)
  {
  }

  /** Which rows survive the round trip through their payload: every field
      a chain tests must be truthy, except the points total, whose chain
      ends in 0 anyway. */
  predicate RoundTrips(e: Entry) {
    && e.totalPoints.Finite? && e.rank.Finite? && e.rank.n != 0
    && e.id != "" && e.username != ""
    && (e.accuracy.Some? ==> e.accuracy.value.Finite? && e.accuracy.value.n != 0)
    && (e.completionTime.Some? ==> e.completionTime.value.Finite? && e.completionTime.value.n != 0)
    && (e.subject.Some? ==> e.subject.value != "")
  }

  /** The id chain of an object with only `_id` set. */
  lemma IdChainOf(j: Json, id: string, index: nat)
    requires j.JObj? && id != ""
    requires Field(j, "userId") == JUndefined && Field(j, "_id") == JStr(id) && Field(j, "id") == JUndefined
    ensures Convert(j, index).id == id
  {
    var fs := Fields(j, IdKeys);
    assert fs[0] == Field(j, "userId") && fs[1] == Field(j, "_id") && fs[2] == Field(j, "id");
    assert fs == [JUndefined, JStr(id), JUndefined];
    FirstTruthyShort(JUndefined, JStr(id), JUndefined, JStr("user-" + NatToString(index)));
  }

  /** The name chain of an object with only `username` set. */
  lemma NameChainOf(j: Json, name: string, index: nat)
    requires j.JObj? && name != ""
    requires Field(j, "username") == JStr(name) && Field(j, "name") == JUndefined
    ensures Convert(j, index).username == name
  {
    var fs := Fields(j, NameKeys);
    assert fs[0] == Field(j, "username") && fs[1] == Field(j, "name");
    assert fs == [JStr(name), JUndefined];
    FirstTruthyShort(JStr(name), JUndefined, JUndefined, JStr("Anonymous"));
  }

  /** The points chain of an object with only `totalPoints` set; a zero
      total falls through to the default 0, which is the same number. */
  lemma PointsChainOf(j: Json, n: int, index: nat)
    requires j.JObj?
    requires Field(j, "totalScore") == JUndefined && Field(j, "totalPoints") == JNum(n)
    requires Field(j, "points") == JUndefined
    ensures Convert(j, index).totalPoints == Finite(n)
  {
    var fs := Fields(j, PointKeys);
    assert fs[0] == Field(j, "totalScore") && fs[1] == Field(j, "totalPoints") && fs[2] == Field(j, "points");
    assert fs == [JUndefined, JNum(n), JUndefined];
    FirstTruthyShort(JUndefined, JNum(n), JUndefined, JNum(0));
  }

  /** `j` is an object holding exactly the payload fields of `e` among the
      keys the conversion reads. */
  predicate Carries(j: Json, e: Entry)
    requires e.totalPoints.Finite? && e.rank.Finite?
    requires e.accuracy.Some? ==> e.accuracy.value.Finite?
    requires e.completionTime.Some? ==> e.completionTime.value.Finite?
  {
    && j.JObj?
    && Field(j, "_id") == JStr(e.id) && Field(j, "username") == JStr(e.username)
    && Field(j, "totalPoints") == JNum(e.totalPoints.n) && Field(j, "rank") == JNum(e.rank.n)
    && Field(j, "userId") == JUndefined && Field(j, "id") == JUndefined && Field(j, "name") == JUndefined
    && Field(j, "totalScore") == JUndefined && Field(j, "points") == JUndefined
    && Field(j, "accuracy") == (if e.accuracy.Some? then JNum(e.accuracy.value.n) else JUndefined)
    && Field(j, "completionTime") ==
         (if e.completionTime.Some? then JNum(e.completionTime.value.n) else JUndefined)
    && Field(j, "subject") == (if e.subject.Some? then JStr(e.subject.value) else JUndefined)
  }

  /** Any object carrying a round-tripping row converts back to that row. */
  lemma ConvertCarrier(j: Json, e: Entry, index: nat)
    requires RoundTrips(e) && Carries(j, e)
    ensures Convert(j, index) == e
  {
    IdChainOf(j, e.id, index);
    NameChainOf(j, e.username, index);
    PointsChainOf(j, e.totalPoints.n, index);
  }

  /** Converting the payload of a row gives the row back, whatever its
      position. */
  lemma ConvertRoundTrip(e: Entry, index: nat)
    requires RoundTrips(e)
    ensures Convert(EntryToJson(e), index) == e
  {
    PayloadRequired(e);
    PayloadAbsent(e);
    PayloadOptional(e);
    ConvertCarrier(EntryToJson(e), e, index);
  }

  /** A rank of 0 is falsy, so the row falls back to its position; so does a
      missing rank. */
  lemma ZeroRankBecomesPosition(fields: map<string, Json>, index: nat)
    ensures Convert(JObj(fields["rank" := JNum(0)]), index).rank == Finite(index + 1)
    ensures "rank" !in fields ==> Convert(JObj(fields), index).rank == Finite(index + 1)
  {
  }

  /** The id chain: `userId` beats `_id`, which beats `id`; a row with none
      of them is named after its position. */
  lemma IdPrecedence(fields: map<string, Json>, index: nat)
    ensures var e := JObj(fields);
      && (Truthy(Field(e, "userId")) ==> Convert(e, index).id == ToStr(Field(e, "userId")))
      && (!Truthy(Field(e, "userId")) && Truthy(Field(e, "_id")) ==> Convert(e, index).id == ToStr(Field(e, "_id")))
      && (!Truthy(Field(e, "userId")) && !Truthy(Field(e, "_id")) && Truthy(Field(e, "id")) ==>
            Convert(e, index).id == ToStr(Field(e, "id")))
      && (!Truthy(Field(e, "userId")) && !Truthy(Field(e, "_id")) && !Truthy(Field(e, "id")) ==>
            Convert(e, index).id == "user-" + NatToString(index))
  {
    var e := JObj(fields);
    var fs := Fields(e, IdKeys);
    assert fs == [Field(e, "userId"), Field(e, "_id"), Field(e, "id")];
    FirstTruthyShort(Field(e, "userId"), Field(e, "_id"), Field(e, "id"), JStr("user-" + NatToString(index)));
  }

  // ---------------------------------------------------------------------
  // The top ten

  function Min(a: int, b: int): int {
    if a <= b then a else b
  }

  /** The rows built from a leaderboard payload: the first ten elements of
      the extracted array, the i-th converted with index i. A string in
      place of the array is walked character by character. */
  function TopRows(d: Json): (r: seq<Entry>)
    ensures |r| == Min(|Elements(Extract(d))|, TopCount)
    ensures forall i :: 0 <= i < |r| ==> r[i] == Convert(Elements(Extract(d))[i], i)
  {
    var xs := Elements(Extract(d));
    seq(Min(|xs|, TopCount), i requires 0 <= i < Min(|xs|, TopCount) => Convert(xs[i], i))
  }

  /** Only the first ten entries matter, and the rows keep their order. */
  lemma TopRowsIgnoresTail(xs: seq<Json>, ys: seq<Json>)
    requires |xs| >= TopCount
    ensures TopRows(JArr(xs + ys)) == TopRows(JArr(xs))
    ensures TopRows(JArr(xs)) == TopRows(JArr(xs[..TopCount]))
  {
    assert (xs + ys)[..TopCount] == xs[..TopCount];
  }

  /** The ranks fall back to positions 1, 2, ...: a payload of entries
      without ranks is shown ranked in input order. */
  lemma UnrankedRowsAreNumberedInOrder(xs: seq<Json>, i: nat)
    requires i < |xs| && i < TopCount
    requires !Truthy(Field(xs[i], "rank"))
    ensures |TopRows(JArr(xs))| > i
    ensures TopRows(JArr(xs))[i].rank == Finite(i + 1)
  {
  }

  /** The home page's leaderboard and connection indicator. */
  datatype Board = Board(rows: seq<Entry>, connected: bool)

  /** The three rows shown when the request throws. */
  const SampleRows := [
    Entry("sample-1", "LearningMaster", Finite(2450), Finite(1), Some(Finite(98)), None, None),
    Entry("sample-2", "QuizChampion", Finite(2180), Finite(2), Some(Finite(95)), None, None),
    Entry("sample-3", "StudyPro", Finite(1920), Finite(3), Some(Finite(92)), None, None)]

  /** The leaderboard part of `refreshData`: a response with a truthy
      `success` and `data` is converted, any other object or value empties
      the board, and a thrown request shows the sample rows. A `null` body
      counts as thrown: reading its `success` raises a `TypeError`, which
      the outer handler catches. Only the first case counts as connected. */
  function LoadBoard(f: Fetched): (b: Board)
    ensures b.connected <==> f.Resolved? && Truthy(Field(f.body, "success")) && Truthy(Field(f.body, "data"))
    ensures |b.rows| <= TopCount
    ensures f.Threw? || Nullish(f.body) ==> b == Board(SampleRows, false)
    ensures f.Resolved? && !Nullish(f.body) && !b.connected ==> b.rows == []
    ensures b.connected ==> b.rows == TopRows(Field(f.body, "data"))
  {
    match f
    case Threw(_) => Board(SampleRows, false)
    case Resolved(resp) =>
      if Nullish(resp) then Board(SampleRows, false)
      else if Truthy(Field(resp, "success")) && Truthy(Field(resp, "data")) then
        Board(TopRows(Field(resp, "data")), true)
      else Board([], false)
  }

  /** A request that throws and one answered with `null` leave the page in
      the same state; an object without `success` empties the board. */
  lemma NullBodyShowsSamples(msg: string)
    ensures LoadBoard(Resolved(JNull)) == LoadBoard(Threw(msg)) == Board(SampleRows, false)
    ensures LoadBoard(Resolved(JObj(map[]))) == Board([], false)
  {
  }
  /** A request the API wrapper caught resolves to a failure body: the board
      is empty and disconnected, without the sample rows, and the statistics
      keep their fixed figures. */
  lemma WrappedFailureEmptiesBoard(message: string)
    ensures LoadBoard(Resolved(ApiFailure(message))) == Board([], false)
    ensures LoadStats(Resolved(ApiFailure(message))) == DefaultStats
  {
  }


  /** A connected board built from an array of twelve plain rows shows
      exactly the first ten of them. */
  lemma ConnectedBoardShowsTopTen(xs: seq<Json>)
    requires |xs| >= TopCount
    ensures var b := LoadBoard(Resolved(JObj(map["success" := JBool(true), "data" := JArr(xs)])));
      b.connected && |b.rows| == TopCount &&
      forall i :: 0 <= i < TopCount ==> b.rows[i] == Convert(xs[i], i)
  {
  }

  // ---------------------------------------------------------------------
  // Platform statistics

  datatype Stats = Stats(activePlayers: Num, leaguesRunning: Num, totalReaders: Num)

  const DefaultStats := Stats(Finite(2547), Finite(12), Finite(156))

  /** `Number(a || b || fallback)` for one statistic. */
  function StatOf(d: Json, primary: string, secondary: string, fallback: int): (r: Num)
    ensures Truthy(Field(d, primary)) ==> r == ToNumber(Field(d, primary))
    ensures !Truthy(Field(d, primary)) && Truthy(Field(d, secondary)) ==> r == ToNumber(Field(d, secondary))
    ensures !Truthy(Field(d, primary)) && !Truthy(Field(d, secondary)) ==> r == Finite(fallback)
  {
    FirstTruthyShort(Field(d, primary), Field(d, secondary), JUndefined, JNum(fallback));
    ToNumber(FirstTruthy([Field(d, primary), Field(d, secondary)], JNum(fallback)))
  }

  /** The statistics part of `refreshData`: every failure path keeps the
      fixed figures; a usable response reads each figure from its primary
      field, then its secondary one, then the fixed figure. */
  function LoadStats(f: Fetched): (s: Stats)
    ensures !(f.Resolved? && Truthy(Field(f.body, "success")) && Truthy(Field(f.body, "data"))) ==> s == DefaultStats
    ensures f.Resolved? && Truthy(Field(f.body, "success")) && Truthy(Field(f.body, "data")) ==>
      var d := Field(f.body, "data");
      s == Stats(StatOf(d, "activePlayers", "totalUsers", 2547),
                 StatOf(d, "leaguesRunning", "activeLeagues", 12),
                 StatOf(d, "totalReaders", "premiumUsers", 156))
  {
    match f
    case Threw(_) => DefaultStats
    case Resolved(resp) =>
      if Truthy(Field(resp, "success")) && Truthy(Field(resp, "data")) then
        var d := Field(resp, "data");
        Stats(
          StatOf(d, "activePlayers", "totalUsers", 2547),
          StatOf(d, "leaguesRunning", "activeLeagues", 12),
          StatOf(d, "totalReaders", "premiumUsers", 156))
      else DefaultStats
  }

  /** A field that is either missing or a number. */
  predicate NumericOrAbsent(d: Json, k: string) {
    Field(d, k).JUndefined? || Field(d, k).JNum?
  }

  /** With numeric (or missing) fields, a statistic is never zero: a zero
      is falsy and falls through to the next candidate, and the chain ends
      in a non-zero figure. */
  lemma StatNeverZero(d: Json, primary: string, secondary: string, fallback: int)
    requires fallback != 0
    requires NumericOrAbsent(d, primary) && NumericOrAbsent(d, secondary)
    ensures StatOf(d, primary, secondary, fallback).Finite?
    ensures StatOf(d, primary, secondary, fallback).n != 0
  {
  }

  /** A stats payload of zeros shows the fixed figures. */
  lemma ZeroStatsShowDefaults()
    ensures var d := JObj(map["activePlayers" := JNum(0), "leaguesRunning" := JNum(0), "totalReaders" := JNum(0)]);
      LoadStats(Resolved(JObj(map["success" := JBool(true), "data" := d]))) == DefaultStats
  {
  }
}

=== FILE: leagues.dfy ===
/** The leagues page: finding the league array in the response, whatever
    shape the backend chose, turning each loosely typed league into a view
    record with defaults, the category/difficulty filter, and the label of
    the button under each league card. */
module Leagues {
  import opened Decimal
  import opened JsNumber
  import opened Json
  import opened Seqs

  /** The filter value that lets everything through. */
  const All := "all"

  const LoadErrorPrefix := "Failed to load leagues: "

  /** A league card. Difficulty, category and status are copied from the
      payload without conversion, so they stay JSON values; only strings
      among them can equal a filter value or a status name. */
  datatype LeagueView = LeagueView(
    id: string,
    name: string,
    description: string,
    participants: int,
    maxParticipants: int,
    startDate: string,
    endDate: string,
    prize: string,
    difficulty: Json,
    category: Json,
    status: Json)

  // ---------------------------------------------------------------------
  // Locating the array

  /** The `leagues` field of `j` when it is an array. */
  predicate HasLeagueArray(j: Json) {
    Truthy(Field(j, "leagues")) && Field(j, "leagues").JArr?
  }

  /** `fetchLeagues`' search for the array: a `leagues` array on the
      response first; otherwise, when `success` and `data` are truthy, `data`
      itself if it is an array, else `data.leagues` if that is one, else
      nothing; otherwise the response itself if it is an array. */
  function ExtractLeagues(resp: Json): (r: seq<Json>)
    ensures HasLeagueArray(resp) ==> r == Field(resp, "leagues").items
    ensures !HasLeagueArray(resp) && Truthy(Field(resp, "success")) && Truthy(Field(resp, "data")) ==>
      var d := Field(resp, "data");
      r == (if d.JArr? then d.items else if HasLeagueArray(d) then Field(d, "leagues").items else [])
    ensures resp.JArr? ==> r == resp.items
    ensures !IsObjectLike(resp) ==> r == []
  {
    if !(Truthy(resp) && IsObjectLike(resp)) then []
    else if HasLeagueArray(resp) then Field(resp, "leagues").items
    else if Truthy(Field(resp, "success")) && Truthy(Field(resp, "data")) then
      var d := Field(resp, "data");
      if d.JArr? then d.items
      else if HasLeagueArray(d) then Field(d, "leagues").items
      else []
    else if resp.JArr? then resp.items
    else []
  }

  /** A response with `success` and a `data` object that holds neither an
      array nor a `leagues` array yields nothing, even when the response
      also has other array-valued fields; a top-level `leagues` array wins
      over everything in `data`. */
  lemma ExtractPrecedence(items: seq<Json>, data: Json)
    ensures ExtractLeagues(JObj(map["leagues" := JArr(items), "success" := JBool(true), "data" := data])) == items
    ensures !data.JArr? && !HasLeagueArray(data) && Truthy(data) ==>
      ExtractLeagues(JObj(map["success" := JBool(true), "data" := data, "items" := JArr(items)])) == []
    ensures ExtractLeagues(JObj(map["success" := JBool(true), "data" := JObj(map["leagues" := JArr(items)])])) == items
  {
    var inner := JObj(map["leagues" := JArr(items)]);
    assert HasLeagueArray(inner);
  }

  /** A `leagues` field that is not an array is ignored, and a falsy
      `success` skips `data` entirely. */
  lemma ExtractIgnoresMalformed(items: seq<Json>, notArray: Json)
    requires !notArray.JArr?
    ensures ExtractLeagues(JObj(map["leagues" := notArray])) == []
    ensures ExtractLeagues(JObj(map["success" := JBool(false), "data" := JArr(items)])) == []
  {
  }

  // ---------------------------------------------------------------------
  // Converting one league

  /** The card for the league at `index`. `nowIso` and `inTwoWeeksIso` are
      the ISO strings of the current time and of fourteen days later, which
      stand in for missing start and end dates. */
  function ConvertLeague(l: Json, index: nat, nowIso: string, inTwoWeeksIso: string): (v: LeagueView)
    ensures Truthy(Field(l, "id")) ==> v.id == ToStr(Field(l, "id"))
    ensures !Truthy(Field(l, "id")) && Truthy(Field(l, "_id")) ==> v.id == ToStr(Field(l, "_id"))
    ensures !Truthy(Field(l, "id")) && !Truthy(Field(l, "_id")) ==> v.id == "league-" + NatToString(index)
    ensures Truthy(Field(l, "name")) ==> v.name == ToStr(Field(l, "name"))
    ensures !Truthy(Field(l, "name")) ==> v.name == "League " + NatToString(index + 1)
    ensures v.participants == 0 <==> !ToNumber(Field(l, "participants")).Truthy()
    ensures v.maxParticipants != 0
    ensures ToNumber(Field(l, "participants")).Truthy() ==> v.participants == ToNumber(Field(l, "participants")).n
    ensures ToNumber(Field(l, "maxParticipants")).Truthy() ==> v.maxParticipants == ToNumber(Field(l, "maxParticipants")).n
    ensures !ToNumber(Field(l, "maxParticipants")).Truthy() ==> v.maxParticipants == 1000
    ensures Truthy(v.difficulty) && Truthy(v.category) && Truthy(v.status)
    ensures v.description == (if Truthy(Field(l, "description")) then ToStr(Field(l, "description")) else "No description available")
    ensures v.prize == (if Truthy(Field(l, "prize")) then ToStr(Field(l, "prize")) else "TBD")
    ensures v.startDate == (if Truthy(Field(l, "startDate")) then ToStr(Field(l, "startDate")) else nowIso)
    ensures v.endDate == (if Truthy(Field(l, "endDate")) then ToStr(Field(l, "endDate")) else inTwoWeeksIso)
    ensures v.difficulty == (if Truthy(Field(l, "difficulty")) then Field(l, "difficulty") else JStr("Intermediate"))
    ensures v.category == (if Truthy(Field(l, "category")) then Field(l, "category") else JStr("Mixed"))
    ensures v.status == (if Truthy(Field(l, "status")) then Field(l, "status") else JStr("upcoming"))
  {
    LeagueView(
      ToStr(Or(Field(l, "id"), Or(Field(l, "_id"), JStr("league-" + NatToString(index))))),
      ToStr(Or(Field(l, "name"), JStr("League " + NatToString(index + 1)))),
      ToStr(Or(Field(l, "description"), JStr("No description available"))),
      ToNumber(Field(l, "participants")).OrElse(0),
      ToNumber(Field(l, "maxParticipants")).OrElse(1000),
      ToStr(Or(Field(l, "startDate"), JStr(nowIso))),
      ToStr(Or(Field(l, "endDate"), JStr(inTwoWeeksIso))),
      ToStr(Or(Field(l, "prize"), JStr("TBD"))),
      Or(Field(l, "difficulty"), JStr("Intermediate")),
      Or(Field(l, "category"), JStr("Mixed")),
      Or(Field(l, "status"), JStr("upcoming")))
  }

  /** `leaguesArray.map(...)`: one card per element, in order. */
  function ConvertAll(ls: seq<Json>, nowIso: string, inTwoWeeksIso: string): (r: seq<LeagueView>)
    ensures |r| == |ls|
    ensures forall i :: 0 <= i < |ls| ==> r[i] == ConvertLeague(ls[i], i, nowIso, inTwoWeeksIso)
  {
    seq(|ls|, i requires 0 <= i < |ls| => ConvertLeague(ls[i], i, nowIso, inTwoWeeksIso))
  }

  /** Every field missing: the documented defaults. A `null` element reads
      the same way through optional chaining. */
  lemma EmptyLeagueDefaults(index: nat, nowIso: string, inTwoWeeksIso: string)
    requires nowIso != "" && inTwoWeeksIso != ""
    ensures var expected := LeagueView("league-" + NatToString(index), "League " + NatToString(index + 1),
        "No description available", 0, 1000, nowIso, inTwoWeeksIso, "TBD",
        JStr("Intermediate"), JStr("Mixed"), JStr("upcoming"));
      && ConvertLeague(JObj(map[]), index, nowIso, inTwoWeeksIso) == expected
      && ConvertLeague(JNull, index, nowIso, inTwoWeeksIso) == expected
  {
  }

  /** Zero and unparsable participant counts both read as 0, a zero
      capacity reads as 1000, and a numeric string is read as its number. */
  lemma FalsyCountsFallBack(index: nat, nowIso: string, inTwoWeeksIso: string)
    ensures ConvertLeague(JObj(map["participants" := JStr("many")]), index, nowIso, inTwoWeeksIso).participants == 0
    ensures ConvertLeague(JObj(map["maxParticipants" := JNum(0)]), index, nowIso, inTwoWeeksIso).maxParticipants == 1000
    ensures ConvertLeague(JObj(map["participants" := JStr("42")]), index, nowIso, inTwoWeeksIso).participants == 42
  {
    var many := JObj(map["participants" := JStr("many")]);
    assert ToNumber(Field(many, "participants")) == NaN;
    var zero := JObj(map["maxParticipants" := JNum(0)]);
    assert ToNumber(Field(zero, "maxParticipants")) == Finite(0);
    var digits := JObj(map["participants" := JStr("42")]);
    assert ToNumber(Field(digits, "participants")) == Finite(42) by {
      StringToNumberRoundTrip(42);
      assert IntToString(42) == "42";
    }
  }

  /** The payload of a card as the backend sends it. */
  function LeagueToJson(v: LeagueView): (j: Json)
    ensures j.JObj?
    ensures Field(j, "id") == JStr(v.id) && Field(j, "name") == JStr(v.name)
    ensures Field(j, "description") == JStr(v.description) && Field(j, "prize") == JStr(v.prize)
    ensures Field(j, "participants") == JNum(v.participants)
    ensures Field(j, "maxParticipants") == JNum(v.maxParticipants)
    ensures Field(j, "startDate") == JStr(v.startDate) && Field(j, "endDate") == JStr(v.endDate)
    ensures Field(j, "difficulty") == v.difficulty && Field(j, "category") == v.category
    ensures Field(j, "status") == v.status
  {
    JObj(map[
      "id" := JStr(v.id), "name" := JStr(v.name), "description" := JStr(v.description),
      "participants" := JNum(v.participants), "maxParticipants" := JNum(v.maxParticipants),
      "startDate" := JStr(v.startDate), "endDate" := JStr(v.endDate), "prize" := JStr(v.prize),
      "difficulty" := v.difficulty, "category" := v.category, "status" := v.status])
  }

  /** Which cards survive the round trip through their payload: every
      field a fallback tests must be truthy. */
  predicate RoundTrips(v: LeagueView) {
    && v.id != "" && v.name != "" && v.description != "" && v.prize != ""
    && v.startDate != "" && v.endDate != ""
    && v.participants != 0 && v.maxParticipants != 0
    && Truthy(v.difficulty) && Truthy(v.category) && Truthy(v.status)
  }

  /** Converting the payload of a card gives the card back, whatever its
      position and whatever the current time. */
  lemma ConvertLeagueRoundTrip(v: LeagueView, index: nat, nowIso: string, inTwoWeeksIso: string)
    requires RoundTrips(v)
    ensures ConvertLeague(LeagueToJson(v), index, nowIso, inTwoWeeksIso) == v
  {
  }

  // ---------------------------------------------------------------------
  // Loading

  datatype LeaguesState = LeaguesState(leagues: seq<LeagueView>, error: string)

  /** `fetchLeagues`: a thrown request clears the list and shows its
      message; any response clears the error and shows what was found. */
  function LoadLeagues(f: Fetched, nowIso: string, inTwoWeeksIso: string): (s: LeaguesState)
    ensures f.Threw? ==> s == LeaguesState([], LoadErrorPrefix + f.message)
    ensures f.Resolved? ==> s.error == "" && |s.leagues| == |ExtractLeagues(f.body)|
    ensures f.Resolved? ==> forall i :: 0 <= i < |s.leagues| ==>
      s.leagues[i] == ConvertLeague(ExtractLeagues(f.body)[i], i, nowIso, inTwoWeeksIso)
  {
    match f
    case Threw(message) => LeaguesState([], LoadErrorPrefix + message)
    case Resolved(resp) => LeaguesState(ConvertAll(ExtractLeagues(resp), nowIso, inTwoWeeksIso), "")
  }
  /** A request the API wrapper caught resolves to a failure body: the list
      is empty and no error message is shown. */
  lemma WrappedFailureShowsNoLeagues(message: string, nowIso: string, inTwoWeeksIso: string)
    ensures LoadLeagues(Resolved(ApiFailure(message)), nowIso, inTwoWeeksIso) == LeaguesState([], "")
  {
  }


  // ---------------------------------------------------------------------
  // Filtering and the action label

  /** `selected === "all" || value === selected`, with strict equality: a
      non-string value never equals a filter string. */
  predicate Selects(selected: string, value: Json) {
    selected == All || value == JStr(selected)
  }

  predicate LeagueMatches(category: string, difficulty: string, v: LeagueView) {
    Selects(category, v.category) && Selects(difficulty, v.difficulty)
  }

  /** `filteredLeagues`. */
  function FilteredLeagues(ls: seq<LeagueView>, category: string, difficulty: string): (r: seq<LeagueView>)
    ensures forall i :: 0 <= i < |r| ==> r[i] in ls && LeagueMatches(category, difficulty, r[i])
    ensures forall i :: 0 <= i < |ls| && LeagueMatches(category, difficulty, ls[i]) ==> ls[i] in r
  {
    Filter(ls, v => LeagueMatches(category, difficulty, v))
  }

  /** The filtered list keeps the page's order, and "all"/"all" shows every
      league. */
  lemma FilteredLeaguesOrder(ls: seq<LeagueView>, category: string, difficulty: string)
    ensures IsSubsequence(FilteredLeagues(ls, category, difficulty), ls)
    ensures FilteredLeagues(ls, All, All) == ls
  {
    FilterIsSubsequence(ls, v => LeagueMatches(category, difficulty, v));
    FilterAll(ls, v => LeagueMatches(All, All, v));
  }

  /** A league whose category is not a string is hidden by every category
      filter except "all". */
  lemma NonStringCategoryHidden(v: LeagueView, category: string, difficulty: string)
    requires !v.category.JStr? && category != All
    ensures FilteredLeagues([v], category, difficulty) == []
  {
  }

  /** The text of the button under a league card. */
  function ActionLabel(status: Json): (r: string)
    ensures r == "Join Now" <==> status == JStr("active")
    ensures r == "Register" <==> status == JStr("upcoming")
    ensures r in {"Join Now", "Register", "Completed"}
  {
    if status == JStr("active") then "Join Now"
    else if status == JStr("upcoming") then "Register"
    else "Completed"
  }

  /** A league sent without a status can be registered for; any status the
      page does not know, including "completed", shows "Completed". */
  lemma ActionLabelOfConverted(l: Json, index: nat, nowIso: string, inTwoWeeksIso: string)
    requires !Truthy(Field(l, "status"))
    ensures ActionLabel(ConvertLeague(l, index, nowIso, inTwoWeeksIso).status) == "Register"
    ensures ActionLabel(JStr("completed")) == "Completed"
    ensures ActionLabel(JStr("Active")) == "Completed"
  {
  }
}

=== FILE: library.dfy ===
/** The library of purchased readers: records read back from local storage
    with defaults filled in, download links that expire after 24 hours, a
    per-item download cap, the purchase-age label and the totals. Local
    storage is an explicit `Storage` value and the clock a parameter. */
module Library {
  import opened Wrappers
  import opened Decimal
  import Seqs

  /** Milliseconds in 24 hours. */
  const DayMs: int := 24 * 60 * 60 * 1000
  /** Download cap when a record does not carry one. */
  const DefaultMaxDownloads: int := 5

  /** A download URL; only its `token` query parameter (a purchase
      timestamp in milliseconds) matters. `None` stands for a URL without a
      token or with one `parseInt` cannot read. */
  datatype Link = Link(token: Option<int>)

  /** A library record as it sits in local storage; a property the record
      lacks is `None`. */
  datatype StoredItem = StoredItem(
    id: string,
    title: Option<string>,
    author: Option<string>,
    description: Option<string>,
    pageCount: Option<int>,
    pages: Option<int>,
    purchaseDate: Option<string>,
    purchasedAt: Option<string>,
    downloadCount: Option<int>,
    maxDownloads: Option<int>,
    category: Option<string>,
    thumbnail: Option<string>,
    downloadUrl: Option<Link>,
    price: Option<int>)

  /** A library record as the page holds it. */
  datatype Item = Item(
    id: string,
    title: string,
    author: string,
    description: string,
    pageCount: int,
    purchaseDate: string,
    downloadCount: int,
    maxDownloads: int,
    category: string,
    thumbnail: Option<string>,
    downloadUrl: Option<Link>,
    price: int)

  /** The three local-storage keys the readers pages share. */
  datatype Storage = Storage(
    userCredits: Option<string>,
    purchasedReaders: Option<seq<string>>,
    libraryItems: Option<seq<StoredItem>>)

  /** `s || d` for an optional string. */
  function StrOr(o: Option<string>, d: string): (r: string)
    ensures o.Some? && o.value != "" ==> r == o.value
    ensures o.None? || o.value == "" ==> r == d
  {
    if o.Some? && o.value != "" then o.value else d
  }

  /** `x || d` for an optional number. */
  function IntOr(o: Option<int>, d: int): (r: int)
    ensures o.Some? && o.value != 0 ==> r == o.value
    ensures o.None? || o.value == 0 ==> r == d
  {
    if o.Some? && o.value != 0 then o.value else d
  }

  // ---------------------------------------------------------------------
  // Loading

  /** `loadLibraryFromStorage`'s normalisation of one record; `nowIso` is the
      current time as an ISO string, used when no purchase date is stored. */
  function Normalize(x: StoredItem, nowIso: string): (r: Item)
    ensures r.id == x.id
    ensures r.title == StrOr(x.title, "Untitled Reader")
    ensures r.author == StrOr(x.author, "Unknown Author")
    ensures r.description == StrOr(x.description, "No description available")
    ensures r.downloadCount == IntOr(x.downloadCount, 0)
    ensures r.maxDownloads == IntOr(x.maxDownloads, DefaultMaxDownloads)
    ensures r.pageCount == IntOr(x.pageCount, IntOr(x.pages, 0))
    ensures r.price == IntOr(x.price, 0)
    ensures r.category == StrOr(x.category, "General")
    ensures r.purchaseDate == StrOr(x.purchaseDate, StrOr(x.purchasedAt, nowIso))
    ensures r.downloadUrl == x.downloadUrl && r.thumbnail == x.thumbnail
  {
    Item(
      x.id,
      StrOr(x.title, "Untitled Reader"),
      StrOr(x.author, "Unknown Author"),
      StrOr(x.description, "No description available"),
      IntOr(x.pageCount, IntOr(x.pages, 0)),
      StrOr(x.purchaseDate, StrOr(x.purchasedAt, nowIso)),
      IntOr(x.downloadCount, 0),
      IntOr(x.maxDownloads, DefaultMaxDownloads),
      StrOr(x.category, "General"),
      x.thumbnail,
      x.downloadUrl,
      IntOr(x.price, 0))
  }

  function NormalizeAll(xs: seq<StoredItem>, nowIso: string): (r: seq<Item>)
    ensures |r| == |xs|
    ensures forall i :: 0 <= i < |xs| ==> r[i] == Normalize(xs[i], nowIso)
  {
    seq(|xs|, i requires 0 <= i < |xs| => Normalize(xs[i], nowIso))
  }

  /** The library the page shows after reading local storage; a missing or
      unreadable key gives an empty library. */
  function LoadLibrary(st: Storage, nowIso: string): (r: seq<Item>)
    ensures st.libraryItems.None? ==> r == []
    ensures st.libraryItems.Some? ==> |r| == |st.libraryItems.value|
  {
    NormalizeAll(st.libraryItems.GetOr([]), nowIso)
  }

  // ---------------------------------------------------------------------
  // Link expiry and the download cap

  /** A link expires strictly more than 24 hours after its token; a link
      without a readable token never expires. */
  predicate Expired(url: Option<Link>, now: int) {
    url.Some? && url.value.token.Some? && now - url.value.token.value > DayMs
  }

  predicate CanDownload(x: Item, now: int) {
    !Expired(x.downloadUrl, now) && x.downloadCount < x.maxDownloads
  }

  /** A link is usable up to and including the 24th hour after its token. */
  lemma ExpiryBoundary(t: int, now: int)
    ensures Expired(Some(Link(Some(t))), now) <==> now > t + DayMs
    ensures !Expired(Some(Link(Some(t))), t + DayMs)
    ensures Expired(Some(Link(Some(t))), t + DayMs + 1)
    ensures !Expired(Some(Link(None)), now) && !Expired(None, now)
  {
  }

  /** Position `i` holds `id` and no earlier record does. */
  predicate FirstWithId(lib: seq<Item>, id: string, i: int)
    requires 0 <= i < |lib|
  {
    lib[i].id == id && forall j :: 0 <= j < i ==> lib[j].id != id
  }

  /** The first record with `id`, as `Array.prototype.find` returns it. */
  function Find(lib: seq<Item>, id: string): (r: Option<Item>)
    ensures r.Some? ==> r.value in lib && r.value.id == id
    ensures r.Some? ==> exists i :: 0 <= i < |lib| && lib[i] == r.value && FirstWithId(lib, id, i)
    ensures r.None? ==> forall i :: 0 <= i < |lib| ==> lib[i].id != id
  {
    if |lib| == 0 then None
    else if lib[0].id == id then Some(lib[0])
    else Find(lib[1..], id)
  }

  datatype DownloadOutcome = NoLink | LinkExpired | LimitReached | Downloaded

  /** The gate `handleDownload` applies, in its order: a link must exist,
      must not have expired, and the cap must not be reached. */
  function DownloadGate(lib: seq<Item>, id: string, now: int): (o: DownloadOutcome)
    ensures o == Downloaded <==> Find(lib, id).Some? && Find(lib, id).value.downloadUrl.Some?
                                 && CanDownload(Find(lib, id).value, now)
    ensures o == NoLink <==> Find(lib, id).None? || Find(lib, id).value.downloadUrl.None?
    ensures o == LinkExpired <==> Find(lib, id).Some? && Find(lib, id).value.downloadUrl.Some?
                                  && Expired(Find(lib, id).value.downloadUrl, now)
    ensures o == LimitReached <==> Find(lib, id).Some? && Find(lib, id).value.downloadUrl.Some?
                                   && !Expired(Find(lib, id).value.downloadUrl, now)
                                   && Find(lib, id).value.downloadCount >= Find(lib, id).value.maxDownloads
  {
    var found := Find(lib, id);
    if found.None? || found.value.downloadUrl.None? then NoLink
    else if Expired(found.value.downloadUrl, now) then LinkExpired
    else if found.value.downloadCount >= found.value.maxDownloads then LimitReached
    else Downloaded
  }

  function IncrementItem(x: Item): Item {
    x.(downloadCount := x.downloadCount + 1)
  }

  function IncrementStored(x: StoredItem): StoredItem {
    x.(downloadCount := Some(IntOr(x.downloadCount, 0) + 1))
  }

  /** The page state and local storage after `handleDownload(id)`. */
  datatype DownloadResult = DownloadResult(
    outcome: DownloadOutcome,
    library: seq<Item>,
    storage: Storage)

  function Download(lib: seq<Item>, st: Storage, id: string, now: int): (r: DownloadResult)
    ensures r.outcome == DownloadGate(lib, id, now)
    ensures r.outcome != Downloaded ==> r.library == lib && r.storage == st
    ensures |r.library| == |lib|
    ensures r.storage.userCredits == st.userCredits
    ensures r.storage.purchasedReaders == st.purchasedReaders
  {
    var o := DownloadGate(lib, id, now);
    if o != Downloaded then DownloadResult(o, lib, st)
    else
      var stored := st.libraryItems.GetOr([]);
      DownloadResult(
        o,
        Seqs.MapWhere(lib, (x: Item) => x.id == id, IncrementItem),
        st.(libraryItems := Some(Seqs.MapWhere(stored, (x: StoredItem) => x.id == id, IncrementStored))))
  }

  /** A download adds exactly one to the matching records' counts and
      touches nothing else. */
  lemma DownloadIncrementsOnlyMatching(lib: seq<Item>, st: Storage, id: string, now: int)
    requires DownloadGate(lib, id, now) == Downloaded
    ensures var r := Download(lib, st, id, now).library;
      forall i :: 0 <= i < |lib| ==>
        if lib[i].id == id then r[i] == lib[i].(downloadCount := lib[i].downloadCount + 1)
        else r[i] == lib[i]
  {
  }

  predicate UniqueIds(lib: seq<Item>) {
    forall i, j :: 0 <= i < j < |lib| ==> lib[i].id != lib[j].id
  }

  predicate WithinCap(lib: seq<Item>) {
    forall i :: 0 <= i < |lib| ==> lib[i].downloadCount <= lib[i].maxDownloads
  }

  lemma {:induction false} FindIndex(lib: seq<Item>, id: string) returns (k: nat)
    requires Find(lib, id).Some?
    ensures k < |lib| && lib[k] == Find(lib, id).value
  {
    if lib[0].id == id {
      k := 0;
    } else {
      var k' := FindIndex(lib[1..], id);
      k := k' + 1;
    }
  }

  /** With one record per reader, downloads never push a count past its cap. */
  lemma DownloadKeepsCap(lib: seq<Item>, st: Storage, id: string, now: int)
    requires UniqueIds(lib) && WithinCap(lib)
    ensures WithinCap(Download(lib, st, id, now).library)
  {
    if DownloadGate(lib, id, now) == Downloaded {
      var k := FindIndex(lib, id);
      var r := Download(lib, st, id, now).library;
      forall i | 0 <= i < |lib| ensures r[i].downloadCount <= r[i].maxDownloads {
        if lib[i].id == id {
          assert i == k;
        }
      }
    }
  }

  /** Counting a download on the stored record and then normalising it is
      the same as counting it on the normalised item. */
  lemma NormalizeIncrement(x: StoredItem, nowIso: string)
    ensures Normalize(IncrementStored(x), nowIso) == IncrementItem(Normalize(x, nowIso))
  {
  }

  /** Incrementing the stored records with `id` and then normalising gives
      the normalised records with `id` incremented. */
  lemma NormalizeAllIncrement(stored: seq<StoredItem>, id: string, nowIso: string)
    ensures NormalizeAll(Seqs.MapWhere(stored, (x: StoredItem) => x.id == id, IncrementStored), nowIso)
         == Seqs.MapWhere(NormalizeAll(stored, nowIso), (x: Item) => x.id == id, IncrementItem)
  {
    var written := Seqs.MapWhere(stored, (x: StoredItem) => x.id == id, IncrementStored);
    var lib := NormalizeAll(stored, nowIso);
    var shown := Seqs.MapWhere(lib, (x: Item) => x.id == id, IncrementItem);
    var after := NormalizeAll(written, nowIso);
    forall i | 0 <= i < |after| ensures after[i] == shown[i] {
      if stored[i].id == id {
        NormalizeIncrement(stored[i], nowIso);
      }
    }
  }

  /** The page state and local storage stay in step: if the library was
      read from storage, reading storage again after a download gives the
      library the page now holds. */
  lemma DownloadKeepsStorageInStep(st: Storage, id: string, now: int, nowIso: string)
    ensures var lib := LoadLibrary(st, nowIso);
      var r := Download(lib, st, id, now);
      LoadLibrary(r.storage, nowIso) == r.library
  {
    var lib := LoadLibrary(st, nowIso);
    var r := Download(lib, st, id, now);
    if r.outcome == Downloaded {
      var stored := st.libraryItems.GetOr([]);
      NormalizeAllIncrement(stored, id, nowIso);
      assert r.storage.libraryItems == Some(Seqs.MapWhere(stored, (x: StoredItem) => x.id == id, IncrementStored));
      assert r.library == Seqs.MapWhere(lib, (x: Item) => x.id == id, IncrementItem);
    }
  }

  // ---------------------------------------------------------------------
  // Totals and clearing

  function TotalDownloads(lib: seq<Item>): int {
    if |lib| == 0 then 0 else lib[0].downloadCount + TotalDownloads(lib[1..])
  }

  /** Sum of `pageCount || 0`. */
  function TotalPages(lib: seq<Item>): int {
    if |lib| == 0 then 0 else lib[0].pageCount + TotalPages(lib[1..])
  }

  function CountId(lib: seq<Item>, id: string): nat {
    if |lib| == 0 then 0 else (if lib[0].id == id then 1 else 0) + CountId(lib[1..], id)
  }

  lemma {:induction false} IncrementTotal(lib: seq<Item>, id: string)
    ensures TotalDownloads(Seqs.MapWhere(lib, (x: Item) => x.id == id, IncrementItem))
         == TotalDownloads(lib) + CountId(lib, id)
  {
    if |lib| > 0 {
      var m := (x: Item) => x.id == id;
      assert Seqs.MapWhere(lib, m, IncrementItem)[1..] == Seqs.MapWhere(lib[1..], m, IncrementItem);
      IncrementTotal(lib[1..], id);
    }
  }

  lemma {:induction false} UniqueCount(lib: seq<Item>, id: string)
    requires UniqueIds(lib) && Find(lib, id).Some?
    ensures CountId(lib, id) == 1
  {
    if lib[0].id != id {
      UniqueCount(lib[1..], id);
    } else {
      assert forall i :: 0 <= i < |lib[1..]| ==> lib[1..][i].id != id;
      NoneCount(lib[1..], id);
    }
  }

  lemma {:induction false} NoneCount(lib: seq<Item>, id: string)
    requires forall i :: 0 <= i < |lib| ==> lib[i].id != id
    ensures CountId(lib, id) == 0
  {
    if |lib| > 0 {
      NoneCount(lib[1..], id);
    }
  }

  /** A successful download raises the total-downloads figure by exactly one
      when each reader has one record; a refused one leaves it alone. */
  lemma DownloadTotal(lib: seq<Item>, st: Storage, id: string, now: int)
    requires UniqueIds(lib)
    ensures var r := Download(lib, st, id, now);
      TotalDownloads(r.library) == TotalDownloads(lib) + (if r.outcome == Downloaded then 1 else 0)
  {
    if DownloadGate(lib, id, now) == Downloaded {
      IncrementTotal(lib, id);
      UniqueCount(lib, id);
    }
  }

  /** `clearLibrary`: after confirmation the library and the purchase list
      are removed from storage; the credits stay. */
  function ClearLibrary(confirmed: bool, lib: seq<Item>, st: Storage): (r: (seq<Item>, Storage))
    ensures !confirmed ==> r == (lib, st)
    ensures confirmed ==> r.0 == [] && r.1.purchasedReaders.None? && r.1.libraryItems.None?
    ensures r.1.userCredits == st.userCredits
  {
    if confirmed then ([], st.(purchasedReaders := None, libraryItems := None)) else (lib, st)
  }

  /** A confirmed clear leaves an empty library, also after a reload, with
      zero totals. */
  lemma ClearEmpties(lib: seq<Item>, st: Storage, nowIso: string)
    ensures var r := ClearLibrary(true, lib, st);
      r.0 == [] && LoadLibrary(r.1, nowIso) == [] && TotalDownloads(r.0) == 0 && TotalPages(r.0) == 0
  {
  }

  // ---------------------------------------------------------------------
  // Purchase age

  datatype Age = Today | Yesterday | DaysAgo(days: int) | WeeksAgo(weeks: int) | MonthsAgo(months: int)

  /** The bucket for `days` whole days since the purchase. */
  function AgeOf(days: int): Age {
    if days == 0 then Today
    else if days == 1 then Yesterday
    else if days < 7 then DaysAgo(days)
    else if days < 30 then WeeksAgo(days / 7)
    else MonthsAgo(days / 30)
  }

  function AgeLabel(a: Age): string {
    match a
    case Today => "Today"
    case Yesterday => "Yesterday"
    case DaysAgo(d) => IntToString(d) + " days ago"
    case WeeksAgo(w) => IntToString(w) + " weeks ago"
    case MonthsAgo(m) => IntToString(m) + " months ago"
  }

  /** Whole days between the purchase and now, rounded down. */
  function DaysSince(purchasedMs: int, nowMs: int): int {
    (nowMs - purchasedMs) / DayMs
  }

  /** `getTimeSincePurchase`, with both dates as millisecond timestamps. */
  function TimeSincePurchase(purchasedMs: int, nowMs: int): string {
    AgeLabel(AgeOf(DaysSince(purchasedMs, nowMs)))
  }

  /** The smallest and one past the largest day count a bucket stands for. */
  function AgeRange(a: Age): (int, int) {
    match a
    case Today => (0, 1)
    case Yesterday => (1, 2)
    case DaysAgo(d) => (d, d + 1)
    case WeeksAgo(w) => (7 * w, 7 * w + 7)
    case MonthsAgo(m) => (30 * m, 30 * m + 30)
  }

  /** For a purchase in the past the bucket says how old it is: the day
      count lies in the bucket's range, and the counts shown are within
      their unit's span. */
  lemma AgeOfIsAccurate(days: nat)
    ensures AgeRange(AgeOf(days)).0 <= days < AgeRange(AgeOf(days)).1
    ensures AgeOf(days).DaysAgo? ==> 2 <= AgeOf(days).days <= 6
    ensures AgeOf(days).WeeksAgo? ==> 1 <= AgeOf(days).weeks <= 4
    ensures AgeOf(days).MonthsAgo? ==> AgeOf(days).months >= 1
    ensures AgeOf(days).Today? <==> days == 0
    ensures AgeOf(days).Yesterday? <==> days == 1
    ensures AgeOf(days).DaysAgo? <==> 2 <= days < 7
    ensures AgeOf(days).WeeksAgo? <==> 7 <= days < 30
    ensures AgeOf(days).MonthsAgo? <==> days >= 30
  {
  }

  /** Within the first 24 hours the label is "Today", during the next 24
      hours "Yesterday". */
  lemma TodayAndYesterday(p: int, elapsed: int)
    requires 0 <= elapsed < 2 * DayMs
    ensures elapsed < DayMs ==> TimeSincePurchase(p, p + elapsed) == "Today"
    ensures elapsed >= DayMs ==> TimeSincePurchase(p, p + elapsed) == "Yesterday"
  {
    if elapsed < DayMs {
      assert DaysSince(p, p + elapsed) == 0;
    } else {
      assert DaysSince(p, p + elapsed) == 1;
    }
  }
}

=== FILE: quiz.dfy ===
/** The timed league challenge: loading a league, the pre-quiz / in-quiz /
    completed gate, answer selection with forward and backward navigation,
    the countdown, and scoring on completion. Every handler is a pure
    transition over an explicit `Session` record; the clock is a parameter. */
module Quiz {
  import opened Wrappers
  import opened Decimal
  import opened JsNumber
  import opened Arith

  /** The value an answer slot holds until the question is answered. */
  const Unanswered: int := -1
  /** Minutes allowed when the league does not say. */
  const DefaultTimeLimit: int := 10

  datatype Question = Question(
    id: string,
    text: string,
    options: seq<string>,
    correctAnswer: int,
    explanation: Option<string>)

  datatype League = League(
    id: string,
    name: string,
    description: string,
    timeLimit: int,
    questions: seq<Question>)

  /** The league payload; a property the payload lacks is `None`. */
  datatype LeagueData = LeagueData(
    id: string,
    name: Option<string>,
    description: Option<string>,
    timeLimit: Option<int>,
    questions: Option<seq<Question>>)

  datatype Results = Results(
    correctAnswers: nat,
    totalQuestions: nat,
    accuracy: Num,
    completionTime: int)

  datatype Session = Session(
    league: League,
    cursor: nat,
    answers: seq<int>,
    pending: Option<int>,
    startTime: Option<int>,
    timeRemaining: int,
    started: bool,
    completed: bool,
    results: Option<Results>)

  datatype LoadOutcome = Loaded(session: Session) | LoadFailed(message: string)

  /** The handlers a user or the countdown can trigger. */
  datatype Action = Start | Select(option: int) | Next | Previous | Tick

  /** The five built-in questions used when the league carries none. */
  const SampleQuestions: seq<Question> := [
    Question("q1", "What is the primary purpose of speed reading techniques?",
      ["To read faster without comprehension",
       "To improve both reading speed and comprehension",
       "To memorize everything you read",
       "To skip difficult sections"], 1,
      Some("Speed reading aims to increase reading speed while maintaining or improving comprehension.")),
    Question("q2", "Which technique helps reduce subvocalization while reading?",
      ["Reading out loud",
       "Using a finger to point at words",
       "Humming or counting while reading",
       "Reading very slowly"], 2,
      Some("Humming or counting occupies the vocal cords and helps prevent subvocalization.")),
    Question("q3", "What is the average reading speed for adults?",
      ["100-150 WPM", "200-250 WPM", "350-400 WPM", "500-600 WPM"], 1,
      Some("Most adults read between 200-250 words per minute with good comprehension.")),
    Question("q4", "Which eye movement pattern is most efficient for reading?",
      ["Reading word by word",
       "Smooth left-to-right movement",
       "Fixation-saccade pattern",
       "Circular movements"], 2,
      Some("The fixation-saccade pattern allows eyes to fixate on word groups and jump efficiently.")),
    Question("q5", "What is 'chunking' in reading comprehension?",
      ["Breaking text into physical pieces",
       "Grouping words or ideas together for better understanding",
       "Reading only certain paragraphs",
       "Skipping words randomly"], 1,
      Some("Chunking involves grouping related information together to improve comprehension and retention."))
  ]

  /** `s || d` for an optional string. */
  function StrOr(o: Option<string>, d: string): string {
    if o.Some? && o.value != "" then o.value else d
  }

  // ---------------------------------------------------------------------
  // Loading

  /** The league the page builds from a payload: each missing or falsy
      property falls back to its default; an empty question list is kept
      because an empty array is truthy. */
  function BuildLeague(data: LeagueData): (l: League)
    ensures data.timeLimit.Some? && data.timeLimit.value != 0 ==> l.timeLimit == data.timeLimit.value
    ensures data.timeLimit.None? || data.timeLimit.value == 0 ==> l.timeLimit == DefaultTimeLimit
    ensures data.questions.Some? ==> l.questions == data.questions.value
    ensures data.questions.None? ==> l.questions == SampleQuestions
    ensures l.name != "" && l.description != ""
  {
    League(
      data.id,
      StrOr(data.name, "League Challenge"),
      StrOr(data.description, "Test your knowledge and skills"),
      if data.timeLimit.Some? && data.timeLimit.value != 0 then data.timeLimit.value else DefaultTimeLimit,
      if data.questions.Some? then data.questions.value else SampleQuestions)
  }

  /** A session before any handler ran, showing the pre-quiz screen. */
  function Fresh(l: League): (s: Session)
    ensures s.cursor == 0 && s.pending.None? && !s.started && !s.completed
    ensures |s.answers| == |l.questions|
    ensures forall i :: 0 <= i < |s.answers| ==> s.answers[i] == Unanswered
    ensures s.timeRemaining == l.timeLimit * 60
  {
    Session(l, 0, seq(|l.questions|, _ => Unanswered), None, None,
            l.timeLimit * 60, false, false, None)
  }

  /** The league fetch: `data` is `None` when the response is not a success
      or carries no data. */
  function Load(data: Option<LeagueData>): (r: LoadOutcome)
    ensures data.None? <==> r.LoadFailed?
    ensures r.LoadFailed? ==> r.message == "Failed to load league challenge"
    ensures r.Loaded? ==> Valid(r.session) && r.session == Fresh(BuildLeague(data.value))
  {
    if data.None? then LoadFailed("Failed to load league challenge")
    else Loaded(Fresh(BuildLeague(data.value)))
  }

  /** A thrown request shows its own message, or a fixed one when the
      message is empty. */
  function LoadThrew(message: string): (r: LoadOutcome)
    ensures r.LoadFailed? && r.message != ""
    ensures message != "" ==> r.message == message
  {
    LoadFailed(if message != "" then message else "Failed to load challenge")
  }

  // ---------------------------------------------------------------------
  // Reachable-state invariant

  /** What every session reached from `Load` satisfies. */
  predicate Valid(s: Session) {
    var n := |s.league.questions|;
    && |s.answers| == n
    && (if n == 0 then s.cursor == 0 else s.cursor < n)
    && (s.completed <==> s.results.Some?)
    && (s.started <==> s.startTime.Some?)
    && (s.completed ==> s.started)
  }

  /** Every recorded answer is unanswered or an option of its question. */
  predicate AnswersInRange(s: Session)
    requires |s.answers| == |s.league.questions|
  {
    forall i :: 0 <= i < |s.answers| ==>
      s.answers[i] == Unanswered || 0 <= s.answers[i] < |s.league.questions[i].options|
  }

  /** The quiz screen (question, options, Previous/Next) is on screen: the
      quiz started, no results yet, and there is a question to show. */
  predicate InQuiz(s: Session) {
    s.started && !s.completed && |s.league.questions| > 0
  }

  // ---------------------------------------------------------------------
  // Scoring

  /** `Math.round(a / b)`: rounds half up. */
  function RoundDiv(a: int, b: int): (r: int)
    requires b > 0
    ensures 2 * b * r <= 2 * a + b < 2 * b * (r + 1)
  {
    (2 * a + b) / (2 * b)
  }

  predicate IsCorrect(qs: seq<Question>, answers: seq<int>, i: int)
    requires 0 <= i < |qs|
  {
    i < |answers| && answers[i] == qs[i].correctAnswer
  }

  /** The positions among the first `k` whose answer is correct. */
  ghost function CorrectPositions(qs: seq<Question>, answers: seq<int>, k: nat): set<int>
    requires k <= |qs|
  {
    set i | 0 <= i < k && IsCorrect(qs, answers, i)
  }

  /** One more position adds itself exactly when it is answered correctly. */
  lemma CorrectPositionsStep(qs: seq<Question>, answers: seq<int>, k: nat)
    requires 0 < k <= |qs|
    ensures CorrectPositions(qs, answers, k) ==
      CorrectPositions(qs, answers, k - 1) + (if IsCorrect(qs, answers, k - 1) then {k - 1} else {})
    ensures k - 1 !in CorrectPositions(qs, answers, k - 1)
  {
  }

  /** Number of positions among the first `k` whose answer is correct. */
  function CountCorrect(qs: seq<Question>, answers: seq<int>, k: nat): (c: nat)
    requires k <= |qs|
    ensures c == |CorrectPositions(qs, answers, k)|
    ensures c <= k
    ensures (forall i :: 0 <= i < k ==> IsCorrect(qs, answers, i)) ==> c == k
    ensures (forall i :: 0 <= i < k ==> !IsCorrect(qs, answers, i)) ==> c == 0
  {
    if k == 0 then 0
    else
      CorrectPositionsStep(qs, answers, k);
      CountCorrect(qs, answers, k - 1) + (if IsCorrect(qs, answers, k - 1) then 1 else 0)
  }

  /** Correcting one wrong answer raises the count by exactly one: every
      position is counted on its own. */
  lemma FixingOneAnswerAddsOne(qs: seq<Question>, answers: seq<int>, i: int)
    requires 0 <= i < |qs| && i < |answers| && !IsCorrect(qs, answers, i)
    ensures CountCorrect(qs, answers[i := qs[i].correctAnswer], |qs|) == CountCorrect(qs, answers, |qs|) + 1
  {
    var fixed := answers[i := qs[i].correctAnswer];
    assert CorrectPositions(qs, fixed, |qs|) == CorrectPositions(qs, answers, |qs|) + {i} by {
      forall j | 0 <= j < |qs|
        ensures IsCorrect(qs, fixed, j) <==> IsCorrect(qs, answers, j) || j == i
      {
      }
    }
  }

  /** Accuracy percentage: `NaN` for a league without questions. */
  function Accuracy(correct: nat, total: nat): (a: Num)
    requires correct <= total
    ensures total == 0 <==> a.NaN?
    ensures total > 0 ==> 0 <= a.n <= 100
    ensures total > 0 ==> 2 * total * a.n <= 200 * correct + total < 2 * total * (a.n + 1)
    ensures total > 0 && correct == total ==> a == Finite(100)
    ensures correct == 0 && total > 0 ==> a == Finite(0)
  {
    if total == 0 then NaN
    else
      PercentBounds(correct, total);
      Finite(RoundDiv(100 * correct, total))
  }

  /** The rounded percentage of `c` out of `t` lies in [0, 100] and hits
      both ends exactly at none and all. */
  lemma PercentBounds(c: nat, t: nat)
    requires 0 < c <= t || (c == 0 && t > 0)
    ensures 0 <= RoundDiv(100 * c, t) <= 100
    ensures c == t ==> RoundDiv(100 * c, t) == 100
    ensures c == 0 ==> RoundDiv(100 * c, t) == 0
  {
    var r := RoundDiv(100 * c, t);
    var d := 2 * t;
    assert d * r <= 200 * c + t < d * (r + 1);
    MulMono(200, c, t);
    if r >= 101 {
      MulMono(d, 101, r);
      assert false;
    }
    if r < 0 {
      MulMono(d, r + 1, 0);
      assert false;
    }
    if c == t && r < 100 {
      MulMono(d, r + 1, 100);
      assert false;
    }
    if c == 0 && r > 0 {
      MulMono(d, 1, r);
      assert false;
    }
  }

  /** The results computed when the quiz is submitted `elapsedMs` after it
      started. */
  function Score(qs: seq<Question>, answers: seq<int>, elapsedMs: int): (r: Results)
    ensures r.totalQuestions == |qs|
    ensures r.correctAnswers == |CorrectPositions(qs, answers, |qs|)|
    ensures r.correctAnswers <= r.totalQuestions
    ensures r.accuracy == Accuracy(r.correctAnswers, r.totalQuestions)
    ensures 2000 * r.completionTime <= 2 * elapsedMs + 1000 < 2000 * (r.completionTime + 1)
  {
    var c := CountCorrect(qs, answers, |qs|);
    Results(c, |qs|, Accuracy(c, |qs|), RoundDiv(elapsedMs, 1000))
  }

  /** The score on the results screen:
      `Math.max(1, Math.floor(accuracy * (100 - completionTime / 10)))`. */
  function DisplayScore(accuracy: Num, completionTime: int): (r: Num)
    ensures accuracy.NaN? <==> r.NaN?
    ensures r.Finite? ==> r.n >= 1
    ensures r.Finite? ==> accuracy.n * (1000 - completionTime) < 10 * (r.n + 1)
    ensures r.Finite? && r.n > 1 ==> 10 * r.n <= accuracy.n * (1000 - completionTime) < 10 * (r.n + 1)
  {
    match accuracy
    case NaN => NaN
    case Finite(a) =>
      var raw := (a * (1000 - completionTime)) / 10;
      Finite(if raw < 1 then 1 else raw)
  }

  /** A slower finish never raises the displayed score. */
  lemma DisplayScoreNonIncreasing(a: int, t1: int, t2: int)
    requires a >= 0 && t1 <= t2
    ensures DisplayScore(Finite(a), t2).n <= DisplayScore(Finite(a), t1).n
  {
    assert a * (1000 - t2) <= a * (1000 - t1) by {
      assert a * (1000 - t1) - a * (1000 - t2) == a * (t2 - t1);
    }
  }

  datatype Tier = Excellent | GoodJob | KeepPracticing

  /** The banner on the results screen. `NaN` fails both comparisons. */
  function TierOf(accuracy: Num): (t: Tier)
    ensures t == Excellent <==> accuracy.Finite? && accuracy.n >= 80
    ensures t == GoodJob <==> accuracy.Finite? && 60 <= accuracy.n < 80
    ensures t == KeepPracticing <==> accuracy.NaN? || accuracy.n < 60
  {
    if accuracy.Finite? && accuracy.n >= 80 then Excellent
    else if accuracy.Finite? && accuracy.n >= 60 then GoodJob
    else KeepPracticing
  }

  function TierRank(t: Tier): nat {
    match t
    case KeepPracticing => 0
    case GoodJob => 1
    case Excellent => 2
  }

  /** A higher accuracy never earns a lower banner. */
  lemma TierMonotone(a: int, b: int)
    requires a <= b
    ensures TierRank(TierOf(Finite(a))) <= TierRank(TierOf(Finite(b)))
  {
  }

  // ---------------------------------------------------------------------
  // The clock face

  /** JavaScript's `%`, whose result takes the sign of the dividend. */
  function JsRem(a: int, b: int): (r: int)
    requires b > 0
    ensures a >= 0 ==> 0 <= r < b
    ensures a < 0 ==> -b < r <= 0
    ensures (a - r) % b == 0
  {
    if a >= 0 then
      ModUnique(a - a % b, b, a / b, 0);
      a % b
    else
      ModUnique(a + (-a) % b, b, -((-a) / b), 0);
      -((-a) % b)
  }

  /** `formatTime`: minutes, a colon, and two-digit seconds. */
  function FormatTime(seconds: int): string {
    IntToString(seconds / 60) + ":" + PadTwo(IntToString(JsRem(seconds, 60)))
  }

  /** Reads an `m:ss` clock face back as seconds. */
  function ParseClock(t: string): Option<int> {
    if |t| >= 4 && t[|t| - 3] == ':' then ClockValue(t[..|t| - 3], t[|t| - 2..]) else None
  }

  /** Minutes and seconds read as digit strings. */
  function ClockValue(minutes: string, seconds: string): Option<int> {
    if AllDigits(minutes) && AllDigits(seconds)
    then Some(DigitsValue(minutes) * 60 + DigitsValue(seconds))
    else None
  }

  lemma {:induction false} LeadingZero(s: string)
    requires AllDigits(s)
    ensures AllDigits("0" + s)
    ensures DigitsValue("0" + s) == DigitsValue(s)
    decreases |s|
  {
    if |s| > 0 {
      var t := "0" + s;
      assert t[..|t| - 1] == "0" + s[..|s| - 1];
      LeadingZero(s[..|s| - 1]);
    }
  }

  lemma TwoDigits(r: nat)
    requires r < 60
    ensures |PadTwo(NatToString(r))| == 2
    ensures AllDigits(PadTwo(NatToString(r)))
    ensures DigitsValue(PadTwo(NatToString(r))) == r
  {
    NatToStringRoundTrip(r);
    if r < 10 {
      LeadingZero(NatToString(r));
      assert PadTwo(NatToString(r)) == "0" + NatToString(r);
    } else {
      assert |NatToString(r)| == 2 by {
        assert NatToString(r) == NatToString(r / 10) + [DigitChar(r % 10)];
      }
    }
  }

  /** Where the parts of `m:ss` sit in the face. */
  lemma ClockFaceLayout(m: string, ss: string)
    requires |ss| == 2
    ensures var t := m + ":" + ss;
      |t| == |m| + 3 && t[|t| - 3] == ':' && t[..|t| - 3] == m && t[|t| - 2..] == ss
  {
    var u := m + ":";
    var t := u + ss;
    assert t[..|u|] == u;
    assert u[..|m|] == m;
    assert t[|m|] == u[|m|];
  }

  /** A face built from a digit string, a colon and two digits parses to
      its parts. */
  lemma ParseClockOfParts(m: string, ss: string)
    requires |m| >= 1 && AllDigits(m) && |ss| == 2 && AllDigits(ss)
    ensures ParseClock(m + ":" + ss) == Some(DigitsValue(m) * 60 + DigitsValue(ss))
  {
    ClockFaceLayout(m, ss);
  }

  /** For a non-negative number of seconds, minutes and seconds are the
      quotient and remainder by 60. */
  lemma FormatTimeOfNat(seconds: nat)
    ensures FormatTime(seconds) == NatToString(seconds / 60) + ":" + PadTwo(NatToString(seconds % 60))
  {
    assert JsRem(seconds, 60) == seconds % 60;
  }

  lemma FormatTimeRoundTrip(seconds: nat)
    ensures ParseClock(FormatTime(seconds)) == Some(seconds)
  {
    var q, r := seconds / 60, seconds % 60;
    var m, ss := NatToString(q), PadTwo(NatToString(r));
    FormatTimeOfNat(seconds);
    TwoDigits(r);
    NatToStringRoundTrip(q);
    calc {
      ParseClock(FormatTime(seconds));
      ParseClock(m + ":" + ss);
      { ParseClockOfParts(m, ss); }
      Some(DigitsValue(m) * 60 + DigitsValue(ss));
      Some(q * 60 + r);
      Some(seconds);
    }
  }

  // ---------------------------------------------------------------------
  // Handlers

  /** `submitQuiz`: without a start time nothing happens; otherwise the
      session completes with results for `final` (or the recorded answers). */
  function Submit(s: Session, final: Option<seq<int>>, now: int): Session {
    if s.startTime.None? || s.startTime.value == 0 then s
    else
      var answers := final.GetOr(s.answers);
      s.(completed := true,
         results := Some(Score(s.league.questions, answers, now - s.startTime.value)))
  }

  /** `handleTimeUp`: submits unless the session already completed. */
  function TimeUp(s: Session, now: int): Session {
    if s.completed then s else Submit(s, None, now)
  }

  /** `startQuiz`, reachable from the pre-quiz screen only. */
  function StartQuiz(s: Session, now: int): Session {
    if s.started then s else s.(started := true, startTime := Some(now))
  }

  /** `selectAnswer`: records a pending choice, not yet an answer. */
  function SelectAnswer(s: Session, option: int): Session {
    if InQuiz(s) then s.(pending := Some(option)) else s
  }

  /** `nextQuestion`: commits the pending choice at the cursor and moves on,
      or submits the updated answers on the last question. */
  function NextQuestion(s: Session, now: int): Session
    requires Valid(s)
  {
    if !InQuiz(s) || s.pending.None? then s
    else
      var updated := s.answers[s.cursor := s.pending.value];
      var committed := s.(answers := updated, pending := None);
      if s.cursor < |s.league.questions| - 1 then committed.(cursor := s.cursor + 1)
      else Submit(committed, Some(updated), now)
  }

  /** `previousQuestion`: steps back and restores the stored answer there as
      the pending choice. */
  function PreviousQuestion(s: Session): Session
    requires Valid(s)
  {
    if !InQuiz(s) || s.cursor == 0 then s
    else
      var stored := s.answers[s.cursor - 1];
      s.(cursor := s.cursor - 1, pending := if stored != Unanswered then Some(stored) else None)
  }

  /** One countdown tick: the interval runs only while the quiz is on screen
      with time left; the last second sets the clock to 0 and times out. */
  function TimerTick(s: Session, now: int): Session {
    if !(InQuiz(s) && s.timeRemaining > 0) then s
    else if s.timeRemaining <= 1 then TimeUp(s.(timeRemaining := 0), now)
    else s.(timeRemaining := s.timeRemaining - 1)
  }

  function Step(s: Session, a: Action, now: int): Session
    requires Valid(s)
  {
    match a
    case Start => StartQuiz(s, now)
    case Select(o) => SelectAnswer(s, o)
    case Next => NextQuestion(s, now)
    case Previous => PreviousQuestion(s)
    case Tick => TimerTick(s, now)
  }

  // ---------------------------------------------------------------------
  // Properties of the handlers

  /** Every handler keeps the session valid. */
  lemma StepPreservesValid(s: Session, a: Action, now: int)
    requires Valid(s)
    ensures Valid(Step(s, a, now))
  {
  }

  /** Answers stay unanswered or valid options as long as only options of
      the question on screen are selected. */
  lemma StepPreservesAnswersInRange(s: Session, a: Action, now: int)
    requires Valid(s) && AnswersInRange(s)
    requires s.pending.Some? && InQuiz(s) ==>
               0 <= s.pending.value < |s.league.questions[s.cursor].options|
    requires a.Select? && InQuiz(s) ==> 0 <= a.option < |s.league.questions[s.cursor].options|
    ensures Valid(Step(s, a, now)) && AnswersInRange(Step(s, a, now))
  {
    StepPreservesValid(s, a, now);
    if a.Previous? && InQuiz(s) && s.cursor > 0 {
      assert s.answers[s.cursor - 1] == Unanswered ||
             0 <= s.answers[s.cursor - 1] < |s.league.questions[s.cursor - 1].options|;
    }
  }

  /** The latch: once completed, no handler changes anything. */
  lemma CompletedIsFinal(s: Session, a: Action, now: int)
    requires Valid(s) && s.completed
    ensures Step(s, a, now) == s
  {
  }

  /** `Next` without a pending choice does nothing. */
  lemma NextWithoutPendingIsNoOp(s: Session, now: int)
    requires Valid(s) && s.pending.None?
    ensures NextQuestion(s, now) == s
  {
  }

  /** `Next` before the last question writes the pending choice only at
      the cursor, clears it, and advances the cursor. */
  lemma NextAdvances(s: Session, now: int)
    requires Valid(s) && InQuiz(s) && s.pending.Some?
    requires s.cursor < |s.league.questions| - 1
    ensures var t := NextQuestion(s, now);
      && t.cursor == s.cursor + 1 && t.cursor < |s.league.questions|
      && t.pending.None? && !t.completed
      && t.answers[s.cursor] == s.pending.value
      && forall i :: 0 <= i < |s.answers| && i != s.cursor ==> t.answers[i] == s.answers[i]
  {
  }

  /** `Next` on the last question submits the updated answers. */
  lemma NextOnLastSubmits(s: Session, now: int)
    requires Valid(s) && InQuiz(s) && s.pending.Some?
    requires s.cursor == |s.league.questions| - 1
    requires s.startTime.value != 0
    ensures var t := NextQuestion(s, now);
      var updated := s.answers[s.cursor := s.pending.value];
      && t.completed && t.answers == updated && t.cursor == s.cursor
      && t.results == Some(Score(s.league.questions, updated, now - s.startTime.value))
  {
  }

  /** `Previous` at the first question does nothing. */
  lemma PreviousAtFirstIsNoOp(s: Session)
    requires Valid(s) && s.cursor == 0
    ensures PreviousQuestion(s) == s
  {
  }

  /** `Previous` steps back, restores the stored answer as the pending
      choice, and leaves the answers alone. */
  lemma PreviousRestores(s: Session)
    requires Valid(s) && InQuiz(s) && s.cursor > 0
    ensures var t := PreviousQuestion(s);
      && t.cursor == s.cursor - 1 && t.answers == s.answers
      && (s.answers[t.cursor] == Unanswered ==> t.pending.None?)
      && (s.answers[t.cursor] != Unanswered ==> t.pending == Some(s.answers[t.cursor]))
  {
  }

  /** Stepping back over an answered question and forward again without
      changing the choice reproduces the answers and the cursor. */
  lemma PreviousThenNext(s: Session, now: int)
    requires Valid(s) && InQuiz(s) && s.cursor > 0
    requires s.answers[s.cursor - 1] != Unanswered
    ensures var t := NextQuestion(PreviousQuestion(s), now);
      t.answers == s.answers && t.cursor == s.cursor && t.pending.None? && !t.completed
  {
    var p := PreviousQuestion(s);
    assert p.answers[p.cursor := p.pending.value] == s.answers;
  }

  /** A tick counts down by one; the last second times out; the clock never
      turns negative. */
  lemma TickCountsDown(s: Session, now: int)
    requires Valid(s) && InQuiz(s) && s.timeRemaining > 0
    ensures var t := TimerTick(s, now);
      && t.timeRemaining >= 0
      && (s.timeRemaining > 1 ==> t == s.(timeRemaining := s.timeRemaining - 1))
      && (s.timeRemaining <= 1 ==> t.timeRemaining == 0)
      && (s.timeRemaining <= 1 && s.startTime.value != 0 ==>
            t.completed && t.results == Some(Score(s.league.questions, s.answers, now - s.startTime.value)))
  {
  }

  /** No handler makes a non-negative clock negative. */
  lemma StepKeepsClockNonNegative(s: Session, a: Action, now: int)
    requires Valid(s) && s.timeRemaining >= 0
    ensures Step(s, a, now).timeRemaining >= 0
  {
  }

  /** Runs the handlers in order. */
  function Run(s: Session, events: seq<(Action, int)>): (t: Session)
    requires Valid(s)
    ensures Valid(t)
    decreases |events|
  {
    if |events| == 0 then s
    else
      StepPreservesValid(s, events[0].0, events[0].1);
      Run(Step(s, events[0].0, events[0].1), events[1..])
  }

  /** Completion happens at most once: whatever runs after it, the results
      computed on entering `completed` are the ones that stay. */
  lemma {:induction false} ResultsAreFinal(s: Session, events: seq<(Action, int)>)
    requires Valid(s) && s.completed
    ensures Run(s, events) == s
  {
    if |events| > 0 {
      CompletedIsFinal(s, events[0].0, events[0].1);
      ResultsAreFinal(s, events[1..]);
    }
  }

  /** The race of the last `Next` and the final tick: whichever runs second
      finds the latch set and changes nothing. */
  lemma LastAnswerAndTimeoutRace(s: Session, now1: int, now2: int)
    requires Valid(s) && InQuiz(s) && s.pending.Some?
    requires s.cursor == |s.league.questions| - 1 && s.startTime.value != 0
    ensures var t := NextQuestion(s, now1);
      t.completed && TimerTick(t, now2) == t
    ensures var u := TimerTick(s.(timeRemaining := 1), now1);
      u.completed && NextQuestion(u, now2) == u
  {
  }

  // ---------------------------------------------------------------------
  // The two reference scenarios

  function AllAnswered(qs: seq<Question>, wrongAt: set<int>): seq<int> {
    seq(|qs|, i requires 0 <= i < |qs| =>
      if i in wrongAt then qs[i].correctAnswer + 1 else qs[i].correctAnswer)
  }

  /** Five questions, the first four right, finished after three minutes:
      80 percent in 180 seconds. */
  lemma FourOfFiveScenario()
    ensures var r := Score(SampleQuestions, AllAnswered(SampleQuestions, {4}), 180_000);
      r.correctAnswers == 4 && r.accuracy == Finite(80) && r.completionTime == 180
  {
    var a := AllAnswered(SampleQuestions, {4});
    assert CountCorrect(SampleQuestions, a, 5) == 4 by {
      assert a[0] == 1 && a[1] == 2 && a[2] == 1 && a[3] == 2 && a[4] == 2;
    }
  }

  /** Only two of five answered when time runs out: the unanswered slots
      count as wrong. */
  lemma TwoOfFiveScenario()
    ensures var r := Score(SampleQuestions, [1, 2, Unanswered, Unanswered, Unanswered], 600_000);
      r.correctAnswers == 2 && r.accuracy == Finite(40) && r.completionTime == 600
  {
    var a := [1, 2, Unanswered, Unanswered, Unanswered];
    assert IsCorrect(SampleQuestions, a, 0) && IsCorrect(SampleQuestions, a, 1);
    assert !IsCorrect(SampleQuestions, a, 2) && !IsCorrect(SampleQuestions, a, 3);
    assert !IsCorrect(SampleQuestions, a, 4);
    assert CountCorrect(SampleQuestions, a, 2) == 2;
    assert CountCorrect(SampleQuestions, a, 3) == 2;
    assert CountCorrect(SampleQuestions, a, 4) == 2;
    assert CountCorrect(SampleQuestions, a, 5) == 2;
  }
}

=== FILE: readers.dfy ===
/** The readers catalog: the credit balance and purchase ledger kept in
    local storage, the purchase handler with its guard order, the
    search/filter/sort pipeline of the catalog view, the category list,
    favourites, and the premium flag derived from the catalog payload. */
module Readers {
  import opened Wrappers
  import opened Decimal
  import opened JsNumber
  import opened Json
  import Seqs
  import Library

  /** Credits a browser starts with. */
  const DefaultCredits: int := 1000
  const InsufficientCredits: string := "Insufficient credits! Please top up your account."

  /** A catalog entry as the page holds it. `rating` is kept as an integer. */
  datatype Reader = Reader(
    id: string,
    title: string,
    author: string,
    description: string,
    category: string,
    difficulty: string,
    price: int,
    rating: int,
    pages: int,
    downloads: int,
    tags: seq<string>,
    thumbnail: string,
    isPremium: bool,
    isFavorited: bool,
    isPurchased: bool)

  /** The button state recorded per reader id. */
  datatype PurchaseState = PurchaseState(isLoading: bool, success: bool, error: string)

  /** The page state plus the local storage it writes through. The balance
      is a JavaScript number: an unparsable stored balance makes it `NaN`. */
  datatype Shop = Shop(
    credits: Num,
    purchased: seq<string>,
    readers: seq<Reader>,
    purchaseStates: map<string, PurchaseState>,
    storage: Library.Storage)

  /** What the purchase handler leads to. */
  datatype PurchaseOutcome = Refused | GoToLibrary | Bought

  // ---------------------------------------------------------------------
  // Initial state from local storage

  /** The balance read at start-up: `parseInt` of the stored text, or 1000
      when nothing (or an empty string) is stored. */
  function InitialCredits(saved: Option<string>): (c: Num)
    ensures saved.None? || saved.value == "" ==> c == Finite(DefaultCredits)
    ensures saved.Some? && saved.value != "" ==> c == ParseInt(saved.value)
  {
    if saved.None? || saved.value == "" then Finite(DefaultCredits) else ParseInt(saved.value)
  }

  function InitialPurchased(saved: Option<seq<string>>): seq<string> {
    saved.GetOr([])
  }

  /** After a confirmed clear on the library page the readers page starts
      with nothing owned and the same balance, so a reader bought before is
      bought again rather than opened, whenever the balance covers it. */
  lemma ClearedReadersAreForSaleAgain(lib: seq<Library.Item>, st: Library.Storage, readers: seq<Reader>,
                                      r: Reader, now: int, nowIso: string)
    requires !InitialCredits(st.userCredits).Below(r.price)
    ensures var st2 := Library.ClearLibrary(true, lib, st).1;
      var s := Shop(InitialCredits(st2.userCredits), InitialPurchased(st2.purchasedReaders), readers, map[], st2);
      && s.purchased == []
      && s.credits == InitialCredits(st.userCredits)
      && Purchase(s, r, now, nowIso).1 == Bought
      && PurchaseOwnedFirst(s, r, now, nowIso).1 == Bought
  {
  }

  /** The balance a purchase writes is the balance the next visit reads,
      `NaN` included. */
  lemma CreditsSurviveReload(c: Num)
    ensures InitialCredits(Some(NumToString(c))) == c
  {
    ParseIntNumRoundTrip(c);
  }

  // ---------------------------------------------------------------------
  // Purchasing

  /** The record a purchase appends to the stored library: the reader's
      fields, a purchase date, a link whose token is the purchase time, no
      downloads yet and a cap of five. */
  function LibraryRecord(r: Reader, now: int, nowIso: string): Library.StoredItem {
    Library.StoredItem(
      r.id, Some(r.title), Some(r.author), Some(r.description),
      None, Some(r.pages), Some(nowIso), None, Some(0), Some(Library.DefaultMaxDownloads),
      Some(r.category), Some(r.thumbnail), Some(Library.Link(Some(now))), Some(r.price))
  }

  function MarkPurchased(r: Reader): Reader {
    r.(isPurchased := true, downloads := r.downloads + 1)
  }

  /** The successful branch of the purchase handler. */
  function Buy(s: Shop, r: Reader, now: int, nowIso: string): Shop {
    var credits := s.credits.Minus(r.price);
    var purchased := s.purchased + [r.id];
    var items := s.storage.libraryItems.GetOr([]) + [LibraryRecord(r, now, nowIso)];
    Shop(
      credits,
      purchased,
      Seqs.MapWhere(s.readers, (x: Reader) => x.id == r.id, MarkPurchased),
      s.purchaseStates[r.id := PurchaseState(false, true, "")],
      Library.Storage(Some(NumToString(credits)), Some(purchased), Some(items)))
  }

  /** `handlePurchase` as written: the balance is checked before ownership. */
  function Purchase(s: Shop, r: Reader, now: int, nowIso: string): (res: (Shop, PurchaseOutcome))
    ensures s.credits.Below(r.price) ==>
      res == (s.(purchaseStates := s.purchaseStates[r.id := PurchaseState(false, false, InsufficientCredits)]), Refused)
    ensures !s.credits.Below(r.price) && r.id in s.purchased ==> res == (s, GoToLibrary)
    ensures !s.credits.Below(r.price) && r.id !in s.purchased ==> res.1 == Bought && (res.0.credits.Finite? ==> res.0.credits.n >= 0)
  {
    if s.credits.Below(r.price) then
      (s.(purchaseStates := s.purchaseStates[r.id := PurchaseState(false, false, InsufficientCredits)]), Refused)
    else if r.id in s.purchased then (s, GoToLibrary)
    else (Buy(s, r, now, nowIso), Bought)
  }

  /** The purchase handler with ownership checked first, as the purchase
      button (enabled for owned readers whatever the balance) expects. */
  function PurchaseOwnedFirst(s: Shop, r: Reader, now: int, nowIso: string): (res: (Shop, PurchaseOutcome))
    ensures r.id in s.purchased ==> res == (s, GoToLibrary)
    ensures r.id !in s.purchased && s.credits.Below(r.price) ==>
      res == (s.(purchaseStates := s.purchaseStates[r.id := PurchaseState(false, false, InsufficientCredits)]), Refused)
    ensures r.id !in s.purchased && !s.credits.Below(r.price) ==> res.1 == Bought
  {
    if r.id in s.purchased then (s, GoToLibrary)
    else if s.credits.Below(r.price) then
      (s.(purchaseStates := s.purchaseStates[r.id := PurchaseState(false, false, InsufficientCredits)]), Refused)
    else (Buy(s, r, now, nowIso), Bought)
  }

  /** The purchase button is enabled for an owned reader even when the
      balance is short (`disabled` needs both a short balance and no
      ownership). */
  predicate PurchaseButtonEnabled(s: Shop, r: Reader) {
    var st := if r.id in s.purchaseStates then Some(s.purchaseStates[r.id]) else None;
    !((st.Some? && st.value.isLoading) || (s.credits.Below(r.price) && r.id !in s.purchased))
  }

  /** As written, clicking the enabled button of an owned reader that now
      costs more than the balance shows "Insufficient credits" instead of
      opening the library. */
  lemma OwnedButShortIsRefused()
    ensures var r := Reader("r1", "T", "A", "D", "General", "Beginner", 200, 4, 100, 0, [], "", true, false, true);
      var s := Shop(Finite(50), ["r1"], [r], map[], Library.Storage(None, None, None));
      && PurchaseButtonEnabled(s, r)
      && Purchase(s, r, 0, "").1 == Refused
      && PurchaseOwnedFirst(s, r, 0, "").1 == GoToLibrary
  {
  }

  /** Both orders agree whenever the balance covers the price or the reader
      is not owned. */
  lemma OrdersAgreeOtherwise(s: Shop, r: Reader, now: int, nowIso: string)
    requires !s.credits.Below(r.price) || r.id !in s.purchased
    ensures Purchase(s, r, now, nowIso) == PurchaseOwnedFirst(s, r, now, nowIso)
  {
  }

  /** A successful purchase: the price comes off the balance, the id is
      appended to the ledger, one library record with no downloads and a
      cap of five is appended, and storage mirrors the page state. */
  lemma BuyUpdatesLedger(s: Shop, r: Reader, now: int, nowIso: string)
    requires !s.credits.Below(r.price) && r.id !in s.purchased
    ensures var t := PurchaseOwnedFirst(s, r, now, nowIso).0;
      && (s.credits.Finite? ==> t.credits == Finite(s.credits.n - r.price) && t.credits.n >= 0)
      && (s.credits.NaN? ==> t.credits.NaN?)
      && t.purchased == s.purchased + [r.id]
      && t.storage.userCredits == Some(NumToString(t.credits))
      && t.storage.purchasedReaders == Some(t.purchased)
      && t.storage.libraryItems.Some?
      && t.storage.libraryItems.value == s.storage.libraryItems.GetOr([]) + [LibraryRecord(r, now, nowIso)]
      && t.purchaseStates[r.id] == PurchaseState(false, true, "")
  {
  }

  /** Only the purchased reader's catalog entry changes: it becomes owned
      and gains one download. */
  lemma BuyMarksOnlyThatReader(s: Shop, r: Reader, now: int, nowIso: string)
    requires !s.credits.Below(r.price) && r.id !in s.purchased
    ensures var t := PurchaseOwnedFirst(s, r, now, nowIso).0;
      |t.readers| == |s.readers| &&
      forall i :: 0 <= i < |s.readers| ==>
        if s.readers[i].id == r.id
        then t.readers[i] == s.readers[i].(isPurchased := true, downloads := s.readers[i].downloads + 1)
        else t.readers[i] == s.readers[i]
  {
  }

  /** After a purchase the library page lists the new record last, fresh:
      no downloads, a cap of five, the reader's page count, and a link that
      works for the next 24 hours. The balance reloads unchanged. */
  lemma PurchaseSeenByLibrary(s: Shop, r: Reader, now: int, nowIso: string, later: int)
    requires !s.credits.Below(r.price) && r.id !in s.purchased
    requires now <= later <= now + Library.DayMs
    ensures var t := PurchaseOwnedFirst(s, r, now, nowIso).0;
      var lib := Library.LoadLibrary(t.storage, nowIso);
      && |lib| == |s.storage.libraryItems.GetOr([])| + 1
      && lib[|lib| - 1].id == r.id
      && lib[|lib| - 1].downloadCount == 0
      && lib[|lib| - 1].maxDownloads == Library.DefaultMaxDownloads
      && lib[|lib| - 1].pageCount == (if r.pages != 0 then r.pages else 0)
      && Library.CanDownload(lib[|lib| - 1], later)
      && InitialCredits(t.storage.userCredits) == t.credits
  {
    var t := PurchaseOwnedFirst(s, r, now, nowIso).0;
    CreditsSurviveReload(t.credits);
  }

  /** An unreadable stored balance reads as `NaN`, which no price exceeds:
      every reader not yet owned is bought, and "NaN" is written back, so
      the next visit reads `NaN` again. */
  lemma UnreadableBalanceBuysEverything(s: Shop, r: Reader, now: int, nowIso: string)
    requires s.credits == InitialCredits(Some("lots")) && r.id !in s.purchased
    ensures s.credits.NaN?
    ensures var (t, o) := Purchase(s, r, now, nowIso);
      && o == Bought
      && t.credits.NaN?
      && t.storage.userCredits == Some("NaN")
      && InitialCredits(t.storage.userCredits).NaN?
  {
    assert SplitSign("lots").1 == "lots";
    assert !IsDigit("lots"[0]);
    CreditsSurviveReload(NaN);
  }

  /** Over any run of purchases (ownership checked first) a finite balance
      never turns negative and grows only through a negative price; a
      `NaN` balance stays `NaN`. */
  function PurchaseAll(s: Shop, rs: seq<Reader>, now: int, nowIso: string): (t: Shop)
    ensures t.credits.NaN? <==> s.credits.NaN?
    ensures s.credits.Finite? && s.credits.n >= 0 ==> t.credits.n >= 0
    ensures s.credits.Finite? ==> t.credits.n <= s.credits.n || exists i :: 0 <= i < |rs| && rs[i].price < 0
    decreases |rs|
  {
    if |rs| == 0 then s
    else PurchaseAll(PurchaseOwnedFirst(s, rs[0], now, nowIso).0, rs[1..], now, nowIso)
  }

  // ---------------------------------------------------------------------
  // The catalog view

  function ToLowerChar(c: char): char {
    if 'A' <= c <= 'Z' then (c as int + 32) as char else c
  }

  /** `toLowerCase` on ASCII letters. */
  function ToLower(s: string): (r: string)
    ensures |r| == |s|
    ensures forall i :: 0 <= i < |s| ==> r[i] == ToLowerChar(s[i])
  {
    seq(|s|, i requires 0 <= i < |s| => ToLowerChar(s[i]))
  }

  /** `needle` occurs in `hay` starting at position `i`. */
  predicate OccursAt(hay: string, needle: string, i: int) {
    0 <= i && i + |needle| <= |hay| && hay[i..i + |needle|] == needle
  }

  /** Dropping the first character shifts every occurrence after it one
      place to the left, and back. */
  lemma OccursAtShift(hay: string, needle: string, i: int)
    requires |hay| > 0 && i >= 1
    ensures OccursAt(hay, needle, i) <==> OccursAt(hay[1..], needle, i - 1)
  {
    if i + |needle| <= |hay| {
      assert hay[1..][i - 1..i - 1 + |needle|] == hay[i..i + |needle|];
    }
  }

  /** `hay.includes(needle)`. */
  function Includes(hay: string, needle: string): (b: bool)
    ensures b <==> exists i :: OccursAt(hay, needle, i)
    decreases |hay|
  {
    if needle <= hay then
      assert OccursAt(hay, needle, 0);
      true
    else if |hay| == 0 then false
    else
      var b := Includes(hay[1..], needle);
      assert b ==> exists i :: OccursAt(hay, needle, i) by {
        if b {
          var j :| OccursAt(hay[1..], needle, j);
          OccursAtShift(hay, needle, j + 1);
        }
      }
      assert (exists i :: OccursAt(hay, needle, i)) ==> b by {
        if exists i :: OccursAt(hay, needle, i) {
          var i :| OccursAt(hay, needle, i);
          assert i != 0;
          OccursAtShift(hay, needle, i);
        }
      }
      b
  }

  /** The empty search matches every text. */
  lemma IncludesEmpty(hay: string)
    ensures Includes(hay, "")
  {
    assert OccursAt(hay, "", 0);
  }

  predicate MatchesSearch(r: Reader, query: string) {
    var q := ToLower(query);
    || Includes(ToLower(r.title), q)
    || Includes(ToLower(r.author), q)
    || exists i :: 0 <= i < |r.tags| && Includes(ToLower(r.tags[i]), q)
  }

  /** The catalog filter: search, category and difficulty, with "all" as a
      wildcard for the last two. */
  predicate Matches(r: Reader, query: string, category: string, difficulty: string) {
    && MatchesSearch(r, query)
    && (category == "all" || r.category == category)
    && (difficulty == "all" || r.difficulty == difficulty)
  }

  datatype SortOrder = Popular | Newest | ByRating | ByPrice

  function SortKey(order: SortOrder): Reader -> int {
    match order
    case Popular => (r: Reader) => -r.downloads
    case ByRating => (r: Reader) => -r.rating
    case ByPrice => (r: Reader) => r.price
    case Newest => (r: Reader) => 0
  }

  /** `filteredReaders`: the matching readers, ordered by `order`; the sort
      is stable, and "newest" keeps catalog order. */
  function FilteredReaders(rs: seq<Reader>, query: string, category: string,
                           difficulty: string, order: SortOrder): (r: seq<Reader>)
    ensures multiset(r) == multiset(Seqs.Filter(rs, (x: Reader) => Matches(x, query, category, difficulty)))
  {
    var kept := Seqs.Filter(rs, (x: Reader) => Matches(x, query, category, difficulty));
    if order == Newest then kept else Seqs.SortBy(kept, SortKey(order))
  }

  /** Every reader shown matches the filters, and every matching reader is
      shown. */
  lemma FilteredIsExactlyTheMatches(rs: seq<Reader>, query: string, category: string,
                                    difficulty: string, order: SortOrder, x: Reader)
    ensures x in FilteredReaders(rs, query, category, difficulty, order)
        <==> x in rs && Matches(x, query, category, difficulty)
  {
    var p := (y: Reader) => Matches(y, query, category, difficulty);
    var kept := Seqs.Filter(rs, p);
    assert x in FilteredReaders(rs, query, category, difficulty, order) <==> x in multiset(kept);
    if x in rs && p(x) {
      var i :| 0 <= i < |rs| && rs[i] == x;
      assert rs[i] in kept;
    }
    if x in kept {
      var i :| 0 <= i < |kept| && kept[i] == x;
    }
  }

  /** The orders: cheapest first, most downloaded first, best rated first,
      catalog order for "newest". */
  lemma FilteredOrder(rs: seq<Reader>, query: string, category: string, difficulty: string)
    ensures var r := FilteredReaders(rs, query, category, difficulty, ByPrice);
      forall i, j :: 0 <= i < j < |r| ==> r[i].price <= r[j].price
    ensures var r := FilteredReaders(rs, query, category, difficulty, Popular);
      forall i, j :: 0 <= i < j < |r| ==> r[i].downloads >= r[j].downloads
    ensures var r := FilteredReaders(rs, query, category, difficulty, ByRating);
      forall i, j :: 0 <= i < j < |r| ==> r[i].rating >= r[j].rating
    ensures Seqs.IsSubsequence(FilteredReaders(rs, query, category, difficulty, Newest), rs)
  {
    var p := (y: Reader) => Matches(y, query, category, difficulty);
    Seqs.FilterIsSubsequence(rs, p);
    var r := FilteredReaders(rs, query, category, difficulty, ByPrice);
    assert Seqs.SortedBy(r, SortKey(ByPrice));
    forall i, j | 0 <= i < j < |r| ensures r[i].price <= r[j].price {
      assert SortKey(ByPrice)(r[i]) <= SortKey(ByPrice)(r[j]);
    }
    var r2 := FilteredReaders(rs, query, category, difficulty, Popular);
    assert Seqs.SortedBy(r2, SortKey(Popular));
    forall i, j | 0 <= i < j < |r2| ensures r2[i].downloads >= r2[j].downloads {
      assert SortKey(Popular)(r2[i]) <= SortKey(Popular)(r2[j]);
    }
    var r3 := FilteredReaders(rs, query, category, difficulty, ByRating);
    assert Seqs.SortedBy(r3, SortKey(ByRating));
    forall i, j | 0 <= i < j < |r3| ensures r3[i].rating >= r3[j].rating {
      assert SortKey(ByRating)(r3[i]) <= SortKey(ByRating)(r3[j]);
    }
  }

  /** With an empty search and both wildcards nothing is filtered out. */
  lemma NoFiltersKeepsCatalog(rs: seq<Reader>)
    ensures FilteredReaders(rs, "", "all", "all", Newest) == rs
  {
    var p := (y: Reader) => Matches(y, "", "all", "all");
    forall i | 0 <= i < |rs| ensures p(rs[i]) {
      IncludesEmpty(ToLower(rs[i].title));
      assert ToLower("") == "";
    }
    Seqs.FilterAll(rs, p);
  }

  /** Each reader's category, in catalog order. */
  function CategoryColumn(rs: seq<Reader>): (cats: seq<string>)
    ensures |cats| == |rs| && forall i :: 0 <= i < |rs| ==> cats[i] == rs[i].category
  {
    seq(|rs|, i requires 0 <= i < |rs| => rs[i].category)
  }

  /** Putting "all" in front of a duplicate-free list of `cats`' values
      keeps every value, adds nothing else and repeats nothing. */
  lemma AllInFront(cats: seq<string>, d: seq<string>)
    requires forall i :: 0 <= i < |d| ==> d[i] in cats
    requires forall i :: 0 <= i < |cats| ==> cats[i] in d
    requires forall i, j :: 0 <= i < j < |d| ==> d[i] != d[j]
    ensures forall i :: 0 <= i < |cats| ==> cats[i] in ["all"] + d
    ensures forall i :: 1 <= i < |["all"] + d| ==> (["all"] + d)[i] in cats
    ensures forall i, j :: 1 <= i < j < |["all"] + d| ==> (["all"] + d)[i] != (["all"] + d)[j]
  {
    assert forall i :: 1 <= i < |["all"] + d| ==> (["all"] + d)[i] == d[i - 1];
  }

  /** The category buttons: "all", then each category once, in order of
      first appearance. */
  function Categories(rs: seq<Reader>): (r: seq<string>)
    ensures |r| >= 1 && r[0] == "all"
    ensures forall i :: 0 <= i < |rs| ==> rs[i].category in r
    ensures forall i :: 1 <= i < |r| ==> exists j :: 0 <= j < |rs| && rs[j].category == r[i]
    ensures forall i, j :: 1 <= i < j < |r| ==> r[i] != r[j]
    ensures Seqs.DedupeOf(CategoryColumn(rs), r[1..])
  {
    var cats := CategoryColumn(rs);
    var d := Seqs.Dedupe(cats);
    assert (["all"] + d)[1..] == d;
    AllInFront(cats, d);
    ["all"] + d
  }

  // ---------------------------------------------------------------------
  // Favourites

  function FlipFavorite(r: Reader): Reader {
    r.(isFavorited := !r.isFavorited)
  }

  /** `toggleFavorite`. */
  function ToggleFavorite(rs: seq<Reader>, id: string): (r: seq<Reader>)
    ensures |r| == |rs|
    ensures forall i :: 0 <= i < |rs| && rs[i].id != id ==> r[i] == rs[i]
    ensures forall i :: 0 <= i < |rs| && rs[i].id == id ==> r[i] == rs[i].(isFavorited := !rs[i].isFavorited)
  {
    Seqs.MapWhere(rs, (x: Reader) => x.id == id, FlipFavorite)
  }

  /** Toggling twice restores the catalog. */
  lemma ToggleFavoriteInvolution(rs: seq<Reader>, id: string)
    ensures ToggleFavorite(ToggleFavorite(rs, id), id) == rs
  {
    var t := ToggleFavorite(ToggleFavorite(rs, id), id);
    forall i | 0 <= i < |rs| ensures t[i] == rs[i] {
    }
  }

  // ---------------------------------------------------------------------
  // Fields derived from the catalog payload

  /** `Number(reader.cost || reader.price || 0)`. */
  function PriceOf(item: Json): Num {
    ToNumber(FirstTruthyField(item, ["cost", "price"], JNum(0)))
  }

  /** `Boolean(reader.isPremium || Number(reader.cost || reader.price || 0) > 100)`. */
  function IsPremium(item: Json): bool {
    Truthy(Field(item, "isPremium")) || (PriceOf(item).Finite? && PriceOf(item).n > 100)
  }

  /** A reader is premium when flagged or priced above 100 credits; `cost`
      takes precedence over `price`, and a zero cost defers to `price`. */
  lemma PremiumDerivation(flag: Json, cost: int, price: int)
    ensures var item := JObj(map["isPremium" := flag, "cost" := JNum(cost), "price" := JNum(price)]);
      && PriceOf(item) == Finite(if cost != 0 then cost else price)
      && (IsPremium(item) <==> Truthy(flag) || (if cost != 0 then cost else price) > 100)
    ensures PriceOf(JObj(map[])) == Finite(0) && !IsPremium(JObj(map[]))
  {
    var item := JObj(map["isPremium" := flag, "cost" := JNum(cost), "price" := JNum(price)]);
    assert Fields(item, ["cost", "price"]) == [JNum(cost), JNum(price)];
    assert FirstTruthy([JNum(cost), JNum(price)], JNum(0))
        == (if cost != 0 then JNum(cost) else if price != 0 then JNum(price) else JNum(0));
    assert Fields(JObj(map[]), ["cost", "price"]) == [JUndefined, JUndefined];
  }
}

=== FILE: seqs.dfy ===
/** Sequence operations behind the array pipelines of the pages:
    `Array.prototype.filter`, the stable `Array.prototype.sort` with a
    numeric comparator, `Array.from(new Set(xs))`, and `map` that rewrites
    only the elements matching a predicate. */
module Seqs {

  /** `r` can be obtained from `s` by deleting elements. */
  predicate IsSubsequence<T(==)>(r: seq<T>, s: seq<T>)
    decreases |s|
  {
    if |r| == 0 then true
    else if |s| == 0 then false
    else if r[0] == s[0] then IsSubsequence(r[1..], s[1..])
    else IsSubsequence(r, s[1..])
  }

  lemma {:induction false} SubsequenceOfSelf<T>(s: seq<T>)
    ensures IsSubsequence(s, s)
    decreases |s|
  {
    if |s| > 0 {
      SubsequenceOfSelf(s[1..]);
    }
  }

  /** `s.filter(p)`. */
  function Filter<T>(s: seq<T>, p: T -> bool): (r: seq<T>)
    ensures |r| <= |s|
    ensures forall i :: 0 <= i < |r| ==> r[i] in s && p(r[i])
    ensures forall i :: 0 <= i < |s| && p(s[i]) ==> s[i] in r
  {
    if |s| == 0 then []
    else if p(s[0]) then [s[0]] + Filter(s[1..], p)
    else Filter(s[1..], p)
  }

  /** Filtering keeps the survivors in their original order. */
  lemma {:induction false} FilterIsSubsequence<T>(s: seq<T>, p: T -> bool)
    ensures IsSubsequence(Filter(s, p), s)
  {
    if |s| > 0 {
      FilterIsSubsequence(s[1..], p);
      if p(s[0]) {
        assert ([s[0]] + Filter(s[1..], p))[1..] == Filter(s[1..], p);
      }
    }
  }

  /** A filter that every element passes changes nothing. */
  lemma {:induction false} FilterAll<T>(s: seq<T>, p: T -> bool)
    requires forall i :: 0 <= i < |s| ==> p(s[i])
    ensures Filter(s, p) == s
  {
    if |s| > 0 {
      FilterAll(s[1..], p);
    }
  }

  /** `xs.map(x => m(x) ? f(x) : x)`. */
  function MapWhere<T>(s: seq<T>, m: T -> bool, f: T -> T): (r: seq<T>)
    ensures |r| == |s|
    ensures forall i :: 0 <= i < |s| && m(s[i]) ==> r[i] == f(s[i])
    ensures forall i :: 0 <= i < |s| && !m(s[i]) ==> r[i] == s[i]
  {
    seq(|s|, i requires 0 <= i < |s| => if m(s[i]) then f(s[i]) else s[i])
  }

  /** Ascending by `key`. */
  predicate SortedBy<T>(s: seq<T>, key: T -> int) {
    forall i, j :: 0 <= i < j < |s| ==> key(s[i]) <= key(s[j])
  }

  /** The elements of `s` whose key is `k`, in order. */
  function KeyClass<T>(s: seq<T>, key: T -> int, k: int): seq<T> {
    if |s| == 0 then []
    else (if key(s[0]) == k then [s[0]] else []) + KeyClass(s[1..], key, k)
  }

  /** Inserts `x` before the first element whose key is not smaller. */
  function InsertBy<T>(x: T, t: seq<T>, key: T -> int): (r: seq<T>)
    ensures |r| == |t| + 1
    ensures multiset(r) == multiset(t) + multiset{x}
  {
    if |t| == 0 || key(x) <= key(t[0]) then [x] + t
    else
      assert t == [t[0]] + t[1..];
      [t[0]] + InsertBy(x, t[1..], key)
  }

  lemma {:induction false} InsertBySorted<T>(x: T, t: seq<T>, key: T -> int)
    requires SortedBy(t, key)
    ensures SortedBy(InsertBy(x, t, key), key)
  {
    if |t| > 0 && key(x) > key(t[0]) {
      var rest := InsertBy(x, t[1..], key);
      InsertBySorted(x, t[1..], key);
      forall i | 0 <= i < |rest| ensures key(t[0]) <= key(rest[i]) {
        assert rest[i] in multiset(rest);
        assert rest[i] in multiset(t[1..]) || rest[i] == x;
      }
    }
  }

  /** The stable sort `s.slice().sort((a, b) => key(a) - key(b))`. */
  function SortBy<T>(s: seq<T>, key: T -> int): (r: seq<T>)
    ensures |r| == |s|
    ensures multiset(r) == multiset(s)
    ensures SortedBy(r, key)
  {
    if |s| == 0 then []
    else
      assert s == [s[0]] + s[1..];
      InsertBySorted(s[0], SortBy(s[1..], key), key);
      InsertBy(s[0], SortBy(s[1..], key), key)
  }

  lemma KeyClassCons<T>(y: T, s: seq<T>, key: T -> int, k: int)
    ensures KeyClass([y] + s, key, k) == (if key(y) == k then [y] else []) + KeyClass(s, key, k)
  {
    assert ([y] + s)[1..] == s;
  }

  /** Inserting past a smaller head: the head's class contribution comes
      first, and `x` cannot share the head's key. */
  lemma InsertByKeyClassStep<T>(x: T, t: seq<T>, key: T -> int, k: int)
    requires |t| > 0 && key(x) > key(t[0])
    requires KeyClass(InsertBy(x, t[1..], key), key, k)
          == (if key(x) == k then [x] else []) + KeyClass(t[1..], key, k)
    ensures KeyClass(InsertBy(x, t, key), key, k)
         == (if key(x) == k then [x] else []) + KeyClass(t, key, k)
  {
    var rest := InsertBy(x, t[1..], key);
    var tail := KeyClass(t[1..], key, k);
    assert InsertBy(x, t, key) == [t[0]] + rest;
    KeyClassCons(t[0], rest, key, k);
    KeyClassCons(t[0], t[1..], key, k);
    assert [t[0]] + t[1..] == t;
    if key(x) == k {
      assert KeyClass(InsertBy(x, t, key), key, k) == [x] + tail;
    } else if key(t[0]) == k {
      assert KeyClass(InsertBy(x, t, key), key, k) == [t[0]] + tail;
    } else {
      assert KeyClass(InsertBy(x, t, key), key, k) == tail;
    }
  }

  lemma {:induction false} InsertByKeyClass<T>(x: T, t: seq<T>, key: T -> int, k: int)
    ensures KeyClass(InsertBy(x, t, key), key, k)
         == (if key(x) == k then [x] else []) + KeyClass(t, key, k)
  {
    if |t| == 0 || key(x) <= key(t[0]) {
      KeyClassCons(x, t, key, k);
    } else {
      InsertByKeyClass(x, t[1..], key, k);
      InsertByKeyClassStep(x, t, key, k);
    }
  }

  /** Stability: elements with equal keys keep their relative order. */
  lemma {:induction false} SortByStable<T>(s: seq<T>, key: T -> int, k: int)
    ensures KeyClass(SortBy(s, key), key, k) == KeyClass(s, key, k)
  {
    if |s| > 0 {
      SortByStable(s[1..], key, k);
      InsertByKeyClass(s[0], SortBy(s[1..], key), key, k);
    }
  }

  /** The position where `v` first occurs in `xs`. */
  function FirstIndexOf<T(==)>(xs: seq<T>, v: T): (k: nat)
    requires v in xs
    ensures k < |xs| && xs[k] == v
    ensures forall m :: 0 <= m < k ==> xs[m] != v
  {
    if xs[0] == v then 0 else 1 + FirstIndexOf(xs[1..], v)
  }

  /** A position holding `v` with no `v` before it is the first one. */
  lemma FirstIndexOfUnique<T>(xs: seq<T>, v: T, k: nat)
    requires k < |xs| && xs[k] == v && forall m :: 0 <= m < k ==> xs[m] != v
    ensures FirstIndexOf(xs, v) == k
  {
    var k' := FirstIndexOf(xs, v);
    assert !(k' < k) && !(k < k');
  }

  /** A value seen in a prefix first occurs at the same place in the whole
      sequence, and before anything the prefix does not contain. */
  lemma FirstIndexOfPrefix<T>(xs: seq<T>, n: nat, v: T)
    requires n <= |xs| && v in xs[..n]
    ensures v in xs && FirstIndexOf(xs, v) == FirstIndexOf(xs[..n], v) < n
  {
    var k := FirstIndexOf(xs[..n], v);
    assert forall m :: 0 <= m <= k ==> xs[m] == xs[..n][m];
    FirstIndexOfUnique(xs, v, k);
  }

  /** `r` lists the values of `xs`, each once, ordered by where each first
      occurs in `xs`. */
  predicate DedupeOf<T(==)>(xs: seq<T>, r: seq<T>) {
    && (forall i :: 0 <= i < |r| ==> r[i] in xs)
    && (forall i :: 0 <= i < |xs| ==> xs[i] in r)
    && (forall i, j :: 0 <= i < j < |r| ==> r[i] != r[j])
    && (forall i, j :: 0 <= i < j < |r| ==> FirstIndexOf(xs, r[i]) < FirstIndexOf(xs, r[j]))
  }

  /** Every value of a prefix's deduplication keeps its first position in
      the whole sequence, and that position lies inside the prefix. */
  lemma DedupePrefixPositions<T>(xs: seq<T>, n: nat, d: seq<T>)
    requires n <= |xs| && forall i :: 0 <= i < |d| ==> d[i] in xs[..n]
    ensures forall i :: 0 <= i < |d| ==> d[i] in xs && FirstIndexOf(xs, d[i]) == FirstIndexOf(xs[..n], d[i]) < n
  {
    forall i | 0 <= i < |d|
      ensures d[i] in xs && FirstIndexOf(xs, d[i]) == FirstIndexOf(xs[..n], d[i]) < n
    {
      FirstIndexOfPrefix(xs, n, d[i]);
    }
  }

  /** Appending a value already seen keeps the deduplication. */
  lemma DedupeExtendSeen<T>(xs: seq<T>, d: seq<T>)
    requires |xs| > 0 && DedupeOf(xs[..|xs| - 1], d) && xs[|xs| - 1] in d
    ensures DedupeOf(xs, d)
  {
    var n := |xs| - 1;
    DedupePrefixPositions(xs, n, d);
    forall i | 0 <= i < |xs| ensures xs[i] in d {
      if i < n {
        assert xs[i] == xs[..n][i];
      }
    }
  }

  /** Appending a new value adds it last. */
  lemma DedupeExtendNew<T>(xs: seq<T>, d: seq<T>)
    requires |xs| > 0 && DedupeOf(xs[..|xs| - 1], d) && xs[|xs| - 1] !in d
    ensures DedupeOf(xs, d + [xs[|xs| - 1]])
  {
    var n := |xs| - 1;
    var last := xs[n];
    var r := d + [last];
    DedupePrefixPositions(xs, n, d);
    assert last !in xs[..n];
    assert FirstIndexOf(xs, last) == n;
    forall i | 0 <= i < |xs| ensures xs[i] in r {
      if i < n {
        assert xs[i] == xs[..n][i];
      }
    }
    forall i, j | 0 <= i < j < |r|
      ensures FirstIndexOf(xs, r[i]) < FirstIndexOf(xs, r[j])
    {
      assert r[i] == d[i];
      if j < |d| {
        assert r[j] == d[j];
      }
    }
  }

  /** `Array.from(new Set(xs))`: each value once, in order of first
      occurrence. */
  function Dedupe<T(==)>(xs: seq<T>): (r: seq<T>)
    ensures DedupeOf(xs, r)
    ensures forall i :: 0 <= i < |r| ==> r[i] in xs
    ensures forall i :: 0 <= i < |xs| ==> xs[i] in r
    ensures forall i, j :: 0 <= i < j < |r| ==> r[i] != r[j]
    ensures forall i, j :: 0 <= i < j < |r| ==> FirstIndexOf(xs, r[i]) < FirstIndexOf(xs, r[j])
  {
    if |xs| == 0 then []
    else
      var d := Dedupe(xs[..|xs| - 1]);
      if xs[|xs| - 1] in d then
        DedupeExtendSeen(xs, d);
        d
      else
        DedupeExtendNew(xs, d);
        d + [xs[|xs| - 1]]
  }

}

=== FILE: wrappers.dfy ===
/** The optional-value datatype used for the source's `undefined`/`null`
    placeholders and for values that may be absent from local storage. */
module Wrappers {

  datatype Option<+T> = None | Some(value: T) {

    /** The wrapped value, or `default` when there is none. */
    function GetOr(default: T): T {
      match this
      case Some(v) => v
      case None => default
    }
  }
}
